=== FILE: README.md ===
# Supplier order normalisation, modelled in Dafny

The application takes supplier order files (CSV with `;` separators, or
`.xlsx` spreadsheets) and normalises each of them into one table. It keeps
eight columns and adds an empty "Annulé" column. It renames "Réf Fournisseur"
to "Référence" and reads "Date besoin" as a date. It groups rows by
(Référence, Ebauche, Version), then keeps per group:

- the first designation, price and band;
- the earliest date;
- the total quantity.

It writes the date back as `DD/MM/YYYY` and rewrites the price in French
style (no decimal point for whole prices, a decimal comma otherwise). It puts
the file name without its extension in a "Commande" column, orders the
columns, and cleans the text cells. Each file's outcome is one of:

- shown;
- skipped (an unreadable spreadsheet);
- the end of the whole run (an error nothing catches).

This project is an executable-style model of that core, written as pure
Dafny functions, with the properties the code promises stated as contracts
and lemmas. The modules:

- `Wrappers`: `Option` and `Result`.
- `Numerals`: powers of ten, digit strings, `str(n)` and zero-padded fields.
- `Text`: code-point order on strings, whitespace, stripping, replacing and
  lowering characters.
- `Decimals`: exact decimals standing for pandas' floats. It covers addition,
  the shortest form, and the numeral reader that Python's `float` is.
- `Dates`: calendar dates, their order, and `strftime('%d/%m/%Y')`.
- `Frame`: the read table, the reader dispatch, the required columns, the
  projection and renaming, and the error kinds.
- `Grouping`: group keys, their order, and the grouping of rows as a sorted
  list of buckets.
- `Aggregate`: date coercion and the per-group reductions (`first`, `min`,
  the numeric sum).
- `Price`: the cleaning of the price text, `format_prix`, and the round trip
  between them.
- `Pipeline`: `os.path.splitext`, the cell cleaning, the price column, one
  whole file (`Run`, `Normalize`), one upload (`ProcessFile`) and the loop
  over the uploads (`RunBatch`).

Some effects become parameters:

- Reading bytes into a table is the parameter `read` of `ProcessFile`. It
  stands for `read_excel` or `read_csv`, and `None` means the reader raised.
- Reading the date texts of a table is the parameter `infer` of
  `ProcessFile` (type `DateInference`), which gives each table its own
  reader `readDate`. `pd.to_datetime` infers one format for the whole
  column from its first non-null text, so the same text may read
  differently in two files. `None` means NaT.
- The final cell cleaning is a parameter of `Run`. `Normalize` instantiates
  it as the code does it, and `NormalizeIntended` as its comment means it
  (see Findings).

Behaviours of the code worth noting:

- Groups come out sorted by key, as pandas' `groupby` sorts by default. They
  are not in order of first appearance.
- Rows with a null key cell belong to no group (`dropna`).
- Only `;` is tried as the CSV separator.
- A missing column, a price that is no number, or a group without any price
  raises an exception nothing catches. That ends the whole run, so later
  files are not processed.
- A quantity written with a decimal comma is NaN for `pd.to_numeric`, so it
  adds nothing to the total.
- A group whose dates are all unreadable or empty shows "nan" as its date
  (Findings). A group without any designation or band shows an empty cell
  there, because `first` leaves `None`, which line 99 empties.

## Model

| member | source | states |
|---|---|---|
| Frame.Dispatch | composants/streamlit_app.py:14-23 | A name ending in ".xlsx" in any mix of cases goes to the spreadsheet reader, and only such a name does. Every other name goes to the `;` CSV reader. |
| Frame.Missing | composants/streamlit_app.py:26-36 | A column is reported missing exactly when it is one of the eight required columns and the table lacks it. |
| Frame.MissingKeepsOrder | composants/streamlit_app.py:26-36 | The missing columns are named in the order of `Required`, the order of the selection that pandas reports in its KeyError. |
| Frame.Project | composants/streamlit_app.py:25-46 | The projection fails exactly when a required column is absent. The error then names every missing column, in the order of `Required`. On success there is one record per row. Each field is the row's cell under the source column ("Référence" taken from "Réf Fournisseur"), and "Annulé" is the empty text. |
| Aggregate.CoerceDates | composants/streamlit_app.py:48-49 | One dated row per row. The date is NaT exactly when the cell is null or does not read as a date. Every other field is unchanged. |
| Aggregate.CoerceKeepsKeys | composants/streamlit_app.py:49-52 | Reading the dates changes no row's group key, and so changes no set of keys. |
| Aggregate.FirstPresent | composants/streamlit_app.py:53-58 | pandas' `first`: null exactly when every cell is null. Otherwise it is a cell of the column, and every cell before it is null. |
| Aggregate.Earliest | composants/streamlit_app.py:54 | pandas' `min` on dates: NaT exactly when every cell is NaT. Otherwise it is one of the dates, and no date of the column is earlier. |
| Aggregate.TotalQuantityAppend | composants/streamlit_app.py:55 | The total of two runs of rows is the exact sum of their totals. |
| Aggregate.TotalQuantityPermutation | composants/streamlit_app.py:55 | Two sequences with the same rows, in any order, have the same total quantity. |
| Aggregate.SummaryDesignation | composants/streamlit_app.py:53 | A group's designation is null exactly when all its rows lack one. Otherwise it is the designation of its first row that has one. |
| Aggregate.SummaryDate | composants/streamlit_app.py:54 | A group's date is NaT exactly when all its rows have NaT. Otherwise it is the date of one of its rows, and no row's date is earlier. |
| Aggregate.SummaryPrice | composants/streamlit_app.py:56 | A group's price cell is null exactly when all its rows lack one. Otherwise it is the price of its first row that has one. |
| Aggregate.SummaryBand | composants/streamlit_app.py:57 | A group's band is null exactly when all its rows lack one. Otherwise it is the band of its first row that has one. |
| Aggregate.GroupsSpec | composants/streamlit_app.py:51-59 | The groups are strictly sorted by key. There is exactly one per distinct complete key of the rows, so never more groups than rows. Each group summarises exactly the rows carrying its key, in input order. |
| Aggregate.GroupFirstDesignation | composants/streamlit_app.py:52-53 | A group's designation is null exactly when every input row with that key has a null designation. |
| Aggregate.MembersAreRows | composants/streamlit_app.py:52 | Every row with key k is among the members of group k, and every member of group k is an input row with key k. |
| Aggregate.MembersCount | composants/streamlit_app.py:52 | The members of group k are the rows with key k, each counted as often as it occurs in the input. |
| Aggregate.RowOrderKeepsTotals | composants/streamlit_app.py:52-55 | Reordering the rows of a file changes neither the set of groups, nor the rows of any group, nor any group's total quantity. |
| Grouping.KeyLessIrreflexive | composants/streamlit_app.py:52 | No key sorts before itself. |
| Grouping.KeyLessTransitive | composants/streamlit_app.py:52 | The key order (lexicographic on Référence, Ebauche, Version, each by code point) is transitive. |
| Grouping.KeyLessTrichotomy | composants/streamlit_app.py:52 | Any two distinct keys are ordered one way or the other. |
| Grouping.KeySet | composants/streamlit_app.py:52 | A key is a group key exactly when some row has all three key cells present and equal to it. |
| Grouping.PlaceKeepsOrder | composants/streamlit_app.py:52 | Adding a row to the sorted buckets keeps them strictly sorted, appends the row to its own key's bucket and leaves every other bucket unchanged. |
| Grouping.BucketsPartition | composants/streamlit_app.py:52 | The buckets are strictly sorted. The bucket for k exists exactly when k is a key of the rows, and it then holds exactly that key's rows, in order. There is one bucket per key. |
| Dates.BeforeIsStrictTotalOrder | composants/streamlit_app.py:54 | The date order used by `min` is irreflexive, transitive and total. |
| Dates.Earlier | composants/streamlit_app.py:54 | The earlier of two dates is one of them, and neither is before it. |
| Dates.Format | composants/streamlit_app.py:62 | `strftime('%d/%m/%Y')` gives ten characters: two digits, '/', two digits, '/', four digits. |
| Dates.FormatReadsBack | composants/streamlit_app.py:62 | Reading the written date day first gives the date back. |
| Dates.FormatInjective | composants/streamlit_app.py:62 | Two distinct dates never get the same text. |
| Pipeline.DateText | composants/streamlit_app.py:62 | The date text is null exactly when the date is NaT. Otherwise it reads back as the group's date. |
| Price.Clean | composants/streamlit_app.py:65-66 | The cleaned price holds no '€' and no ',' and is no longer than the cell. |
| Price.CleanAppend | composants/streamlit_app.py:65-66 | Cleaning works character by character and keeps the order: cleaning a text gives the cleanings of its two parts, put together. |
| Price.CleanChar | composants/streamlit_app.py:65-66 | Cleaning drops a '€', turns a ',' into '.', and keeps every other character. With `CleanAppend` this fixes the cleaning of every text. |
| Text.RemoveCharAppend | composants/streamlit_app.py:65 | `replace('€', '')` treats the two parts of a text independently and keeps their order. |
| Decimals.ParseDecimalCharacters | composants/streamlit_app.py:67 | A text that `float` accepts holds only digits, signs, points and whitespace, so a decimal comma left in it makes the conversion fail. |
| Decimals.IntegralShortest | composants/streamlit_app.py:69-70 | `x == int(x)` holds exactly when the shortest form of x has no fraction digits. The shortest form is then the integer `int(x)`. |
| Decimals.Shortest | composants/streamlit_app.py:72 | The shortest form denotes the same number, with no trailing zero in its fraction. |
| Price.FormatPrice | composants/streamlit_app.py:68-72 | `format_prix` writes a non-empty text without '.' or '€'. It contains a ',' exactly when the price is not a whole number. |
| Price.PriceText | composants/streamlit_app.py:64-73 | A cell gets a rendered price exactly when its cleaned text reads as a number. The rendered text then cleans and parses back to the shortest decimal of that number. It has a comma exactly when the number is not whole, and no '.' or '€'. |
| Price.PriceRoundTrip | composants/streamlit_app.py:64-73 | Cleaning and reading the rendered price gives the shortest decimal for the same number, so the comma rendering loses nothing. |
| Decimals.AddValue | composants/streamlit_app.py:55 | The exact sum of two quantities denotes the sum of the numbers. |
| Decimals.AddAssociates | composants/streamlit_app.py:55 | Summing quantities in any grouping gives the same representation. |
| Decimals.AddCommutes | composants/streamlit_app.py:55 | Summing quantities in either order gives the same representation. |
| Pipeline.ReadPrices | composants/streamlit_app.py:67 | `astype(float)` on the price column succeeds exactly when every non-null cell reads as a number. Each value is then that number, or NaN for a null. On failure the error carries the cleaned text of the first cell, in group order, that is no number. |
| Pipeline.FormatPrices | composants/streamlit_app.py:68-73 | `apply(format_prix)` succeeds exactly when no price is NaN, and then writes each price as `format_prix` does. Otherwise it fails with the `int(NaN)` error. |
| Pipeline.PricesSpec | composants/streamlit_app.py:64-73 | The price column succeeds exactly when every group has a price that reads as a number, and it then shows each one as `format_prix` writes it. It fails on a missing price exactly when every present price reads as a number and some group has none. A text that is no number is reported with the first such cell. |
| Pipeline.Splitext | composants/streamlit_app.py:76 | `os.path.splitext` splits the name into two parts that concatenate back to it. The second part is empty or a '.' followed by no '.' or '/'. |
| Pipeline.StemDropsExtension | composants/streamlit_app.py:76 | A name made of a root and an extension, where the root's last path component has a character other than '.', has that root as its "Commande". |
| Pipeline.StemWithoutDot | composants/streamlit_app.py:76 | A name without a '.' is its own "Commande". |
| Pipeline.StemKeepsDotOnly | composants/streamlit_app.py:76 | A name whose last path component has only dots before its last dot (".xlsx", "dir/..csv") has no extension and is its own "Commande". |
| Pipeline.StemWithoutDotInLastComponent | composants/streamlit_app.py:76 | A name with no '.' after its last '/' has no extension. |
| Pipeline.Blank | composants/streamlit_app.py:99 | `replace("None", "")` empties a cell exactly when its whole text is "None"; no other text changes. |
| Pipeline.RunRejectsMissingColumns | composants/streamlit_app.py:36 | A file fails with the missing-column error exactly when a required column is absent. That error names the missing columns. |
| Pipeline.RunShape | composants/streamlit_app.py:75-92 | A successful result has the ten columns in the order of lines 80-91. It has one line per distinct key of the file, never more lines than rows. Every line has ten cells. "Commande" holds the file's stem, emptied only when the stem is "None". "Annulé" holds the cleaned empty text. |
| Pipeline.RunLines | composants/streamlit_app.py:52-92 | Line i of a successful result is group i of the sorted groups. It shows that group's key cells, the first designation, price and band of its rows, the earliest of their dates, and the total of their quantities. |
| Pipeline.RunOutcomeIgnoresCellText | composants/streamlit_app.py:94-99 | Whether a file normalises, and with which error, does not depend on how the final cleaning writes cells. |
| Pipeline.FirstCell | composants/streamlit_app.py:53-57 | `first` on a text column leaves `None`, never NaN, exactly for a group whose rows have no value. Otherwise it keeps the first value's own text. |
| Pipeline.DateCell | composants/streamlit_app.py:62 | `.dt.strftime` leaves NaN exactly for NaT. Any other date becomes a text that reads back as that date. |
| Pipeline.NullShowsNan | composants/streamlit_app.py:96-99 | As written, a NaN ends up as the text "nan", and a `None` ends up empty, since `str` makes it "None". A cell ends up empty exactly when it is `None`, empty or "None". |
| Pipeline.CellTextBlanksNulls | composants/streamlit_app.py:98-99 | The corrected cleaning empties a cell exactly when it is `None`, NaN, empty or "None". It differs from the code's cleaning on NaN and nowhere else. |
| Pipeline.RunCells | composants/streamlit_app.py:53-99 | Line i's designation cell is the cleaned result of `first` of its group, and its date cell is the cleaned `strftime` of the group's earliest date. |
| Pipeline.NullDateShowsNan | composants/streamlit_app.py:54-99 | For a group whose dates are all NaT, the code's output shows "nan" in the date column and the corrected output shows an empty cell. Both succeed together. |
| Pipeline.NullDesignationShowsEmpty | composants/streamlit_app.py:53-99 | For a group whose rows all lack a designation, the code's output shows an empty designation. |
| Pipeline.ProcessFileSpec | composants/streamlit_app.py:12-23 | A file is skipped exactly when it is a spreadsheet the reader cannot read, and then with that error. An unreadable CSV, and only that, stops the run with the CSV error. A table is shown exactly when the file reads and normalises. |
| Pipeline.NormalizeNeverUnreadable | composants/streamlit_app.py:25-99 | The normalisation of a table never fails with a reading error. |
| Pipeline.RunBatch | composants/streamlit_app.py:10-11 | The uploads are processed in order, each one's outcome being that of the file alone. Nothing before the last outcome stops the run. When not every file was processed, the last outcome is a stop. |
| Pipeline.UntilStopped | composants/streamlit_app.py:10-11 | The run is the longest prefix of the outcomes that ends at the first stop: nothing before its end stops, and it is cut short only at a stop. |

## Left out

- The Streamlit page (lines 1-8, 12, 19-20, 101 onward) is left out: the
  title, uploader, messages, table display and the CSV download with its
  `utf-8-sig` encoding. None of it changes the normalised table.
- `pd.read_excel` and `pd.read_csv` are the parameter `read`. Their parsing
  (quoting, header handling, the suffixes pandas adds to repeated headers) is
  not modelled. A read table is assumed to have distinct column names and
  rows as long as the header.
- `pd.to_datetime` format inference is the parameter `infer`, one date
  reader per table. Which format it picks from the column's first non-null
  text, and so which texts it accepts and whether it reads them day first or
  month first, is not modelled.
- Aggregate.TotalQuantity: when every quantity of a file reads as an
  integer, `pd.to_numeric` gives an int64 column, and its `sum` at line 55
  wraps silently past 2^63 - 1. The model's total is exact and does not
  wrap.
- Floats are exact decimals. The model does not cover binary rounding,
  `str(x)` switching to scientific notation for very large or very small
  numbers, or digits beyond float precision.
- `float()` on a price accepts things the model does not:
  - underscores between digits;
  - exponents (`1e3`);
  - `inf` and `nan`;
  - non-ASCII digits.
- `pd.to_numeric` on a quantity accepts things the model does not:
  - exponents (`1e3`);
  - the spellings pandas takes for infinity and NaN.

  It takes ASCII digits only and no underscores, as the model does.
- The rendering of the "Qté" number in the shown and downloaded table is not
  modelled. It stays a number (`Number`).
- `str.lower()` is modelled on ASCII letters only. No other character lowers
  to '.', 'x', 'l' or 's', so the ".xlsx" test comes out the same.
- `Pipeline.Run`: when every group's price is null, pandas may type the
  column as float. The `.str` accessor at line 65 then raises before
  `format_prix` does. The model reports the missing price; either way the
  file stops the run.
- The UTF-8 encode and decode with `errors='replace'` at line 96 is the
  identity on Dafny strings, whose characters are Unicode scalar values.
  Only lone surrogates, which Dafny strings cannot hold, would be replaced.
- Dates.Format: dates are limited to years 1000 to 9999, where `%Y` writes
  four digits. Other years are not modelled.
- Pipeline.FirstCell follows pandas 2, where `first` leaves `None` in an
  object column for a group without any value. pandas 1 left NaN there,
  which would show "nan".
- The dtype pandas gives the columns of a table with no group at all is not
  modelled. Such a table normalises to no lines.
- `debug_encoding.py` and the other scripts of the repository are not part of
  this model.

## Findings

| source | as written | input that shows it | evidently intended | confidence | as-written member | corrected member |
|---|---|---|---|---|---|---|
| composants/streamlit_app.py:94-99 | `.dt.strftime` at line 62 writes NaN for NaT. `astype(str)` at line 96 turns that NaN into the text "nan" before `fillna("")` at line 99 runs, so the fill finds nothing to fill | a group whose "Date besoin" cells are all empty or unreadable | NaN cells shown empty, as the comment at line 98 says | high (not executed) | Pipeline.NullShowsNan | Pipeline.CellTextBlanksNulls |

`Pipeline.Normalize` is the code as written. `Pipeline.NullDateShowsNan`
exhibits the difference on whole files: the as-written output has "nan" in
the date column and the corrected one (`Pipeline.NormalizeIntended`) an empty
cell. The `None` that `first` leaves in the designation and band columns
becomes "None" and is emptied by line 99, so those columns already show
empty (`Pipeline.NullDesignationShowsEmpty`). Every other
result (`RunShape`, `RunLines`, `RunRejectsMissingColumns`) is stated for any
cleaning, so it holds for both.

=== FILE: aggregate.dfy ===
/** The reductions of lines 49 and 52-59: the date column read into dates,
    then, per group, the first non-null "Désignation", "Prix", "Bande" and
    "Annulé", the earliest "Date besoin" and the total "Qté". */
module Aggregate {
  import opened Wrappers
  import opened Decimals
  import opened Dates
  import opened Frame
  import opened Grouping
  import Text

  /** A row once line 49 has read its "Date besoin" cell: `None` is NaT. */
  type DatedRecord = Record<Option<CalendarDate>>

  /** Line 49, `pd.to_datetime(..., errors='coerce')`, with the reading of one
      text given as `readDate`: a null cell, or one `readDate` refuses,
      becomes NaT; every other field is left alone. */
  function CoerceDates(rs: seq<Record<Cell>>, readDate: string -> Option<CalendarDate>): (ds: seq<DatedRecord>)
    ensures |ds| == |rs|
    ensures forall i :: 0 <= i < |rs| ==>
      && ds[i].needed == (if rs[i].needed.None? then None else readDate(rs[i].needed.value))
      && WithDate(ds[i], rs[i].needed) == rs[i]
  {
    seq(|rs|, i requires 0 <= i < |rs| => WithDate(rs[i], ReadCell(rs[i].needed, readDate)))
  }

  function ReadCell(c: Cell, readDate: string -> Option<CalendarDate>): Option<CalendarDate> {
    match c
    case None => None
    case Some(s) => readDate(s)
  }

  /** `r` with its "Date besoin" cell replaced by `d`. */
  function WithDate<D, E>(r: Record<D>, d: E): Record<E> {
    Record(r.reference, r.designation, d, r.version, r.ebauche, r.quantity, r.price, r.band, r.cancelled)
  }

  /** Reading dates keeps every row's key, so it changes no group. */
  lemma CoerceKeepsKeys(rs: seq<Record<Cell>>, readDate: string -> Option<CalendarDate>)
    ensures forall i :: 0 <= i < |rs| ==> KeyOf(CoerceDates(rs, readDate)[i]) == KeyOf(rs[i])
    ensures KeySet(CoerceDates(rs, readDate)) == KeySet(rs)
  {
    var ds := CoerceDates(rs, readDate);
    assert forall i :: 0 <= i < |rs| ==> KeyOf(ds[i]) == KeyOf(rs[i]);
  }

  /** The cells of one column, in row order. */
  function Column<D>(ms: seq<Record<D>>, field: Record<D> -> Cell): (cs: seq<Cell>)
    ensures |cs| == |ms| && forall i :: 0 <= i < |ms| ==> cs[i] == field(ms[i])
  {
    seq(|ms|, i requires 0 <= i < |ms| => field(ms[i]))
  }

  /** pandas' `first`: the first non-null cell, null when there is none. */
  function FirstPresent(cells: seq<Cell>): (r: Cell)
    ensures r.None? <==> forall i :: 0 <= i < |cells| ==> cells[i].None?
    ensures r.Some? ==> exists i :: 0 <= i < |cells| && cells[i] == r && forall j :: 0 <= j < i ==> cells[j].None?
  {
    if |cells| == 0 then None
    else if cells[0].Some? then cells[0]
    else
      var r := FirstPresent(cells[1..]);
      assert forall i :: 0 < i < |cells| ==> cells[i] == cells[1..][i - 1];
      r
  }

  /** pandas' `min` on a datetime column: the earliest date, NaT ignored,
      NaT when every cell is. */
  function Earliest(dates: seq<Option<CalendarDate>>): (r: Option<CalendarDate>)
    ensures r.None? <==> forall i :: 0 <= i < |dates| ==> dates[i].None?
    ensures r.Some? ==> r in dates
    ensures r.Some? ==> forall i :: 0 <= i < |dates| && dates[i].Some? ==> !Before(dates[i].value, r.value)
  {
    if |dates| == 0 then None
    else
      var rest := Earliest(dates[1..]);
      assert forall i :: 0 < i < |dates| ==> dates[i] == dates[1..][i - 1];
      match (dates[0], rest)
      case (None, _) => rest
      case (Some(_), None) => dates[0]
      case (Some(a), Some(b)) => Some(Earlier(a, b))
  }

  /** Line 55 on one cell: `pd.to_numeric(errors='coerce')`, which skips
      ASCII whitespace around the numeral and turns anything else it cannot
      read (a decimal comma included) into NaN. */
  function ParseQuantity(c: Cell): Option<Decimal> {
    match c
    case None => None
    case Some(s) => ParseDecimal(s, Text.IsAsciiSpace)
  }

  /** What one row adds to the total: NaN adds nothing. */
  function Contribution<D>(r: Record<D>): Decimal {
    match ParseQuantity(r.quantity)
    case None => Zero
    case Some(d) => d
  }

  /** Line 55: the sum of the quantities that read as numbers; 0 for a group
      with none. */
  function TotalQuantity<D>(ms: seq<Record<D>>): Decimal {
    if |ms| == 0 then Zero else Add(Contribution(ms[0]), TotalQuantity(ms[1..]))
  }

  /** The total of two runs of rows is the sum of their totals. */
  lemma {:induction false} TotalQuantityAppend<D>(a: seq<Record<D>>, b: seq<Record<D>>)
    ensures TotalQuantity(a + b) == Add(TotalQuantity(a), TotalQuantity(b))
  {
    if |a| == 0 {
      assert a + b == b;
      AddZero(TotalQuantity(b));
    } else {
      assert (a + b)[1..] == a[1..] + b;
      TotalQuantityAppend(a[1..], b);
      AddAssociates(Contribution(a[0]), TotalQuantity(a[1..]), TotalQuantity(b));
    }
  }

  /** The total does not depend on the order of the rows, so it is the same
      whatever order a group's rows arrive in. */
  lemma {:induction false} TotalQuantityPermutation<D>(a: seq<Record<D>>, b: seq<Record<D>>)
    requires multiset(a) == multiset(b)
    ensures TotalQuantity(a) == TotalQuantity(b)
    decreases |a|
  {
    if |a| > 0 {
      var x := a[0];
      assert x in multiset(b);
      var j :| 0 <= j < |b| && b[j] == x;
      var rest := b[..j] + b[j + 1..];
      assert b == b[..j] + [x] + b[j + 1..];
      assert multiset(a[1..]) == multiset(rest) by {
        assert a == [x] + a[1..];
        assert multiset(a) == multiset{x} + multiset(a[1..]);
        assert multiset(b) == multiset(b[..j]) + multiset([x]) + multiset(b[j + 1..]);
        assert multiset(rest) == multiset(b[..j]) + multiset(b[j + 1..]);
        assert multiset([x]) == multiset{x};
        assert multiset(a[1..]) == multiset(a) - multiset{x};
        assert multiset(rest) == multiset(b) - multiset{x};
      }
      TotalQuantityPermutation(a[1..], rest);
      MoveToFront(b[..j], x, b[j + 1..]);
    }
  }

  /** Moving one row to the front leaves the total as it was. */
  lemma MoveToFront<D>(u: seq<Record<D>>, x: Record<D>, v: seq<Record<D>>)
    ensures TotalQuantity(u + [x] + v) == Add(Contribution(x), TotalQuantity(u + v))
  {
    var cx, tu, tv := Contribution(x), TotalQuantity(u), TotalQuantity(v);
    TotalQuantityAppend(u + [x], v);
    TotalQuantityAppend(u, [x]);
    TotalQuantityAppend(u, v);
    assert TotalQuantity([x]) == Add(cx, Zero);
    AddZero(cx);
    AddCommutes(tu, cx);
    AddAssociates(cx, tu, tv);
  }

  /** One output line before rendering: the reductions of lines 53-58. */
  datatype Summary = Summary(
    designation: Cell,
    needed: Option<CalendarDate>,
    quantity: Decimal,
    price: Cell,
    band: Cell,
    cancelled: Cell)

  datatype Group = Group(key: Key, summary: Summary)

  /** Lines 53-58 on the rows of one group. */
  function Summarise(ms: seq<DatedRecord>): Summary {
    Summary(
      FirstPresent(Column(ms, DesignationCell)),
      Earliest(NeededColumn(ms)),
      TotalQuantity(ms),
      FirstPresent(Column(ms, PriceCell)),
      FirstPresent(Column(ms, BandCell)),
      FirstPresent(Column(ms, CancelledCell)))
  }

  function DesignationCell(r: DatedRecord): Cell { r.designation }
  function PriceCell(r: DatedRecord): Cell { r.price }
  function BandCell(r: DatedRecord): Cell { r.band }
  function CancelledCell(r: DatedRecord): Cell { r.cancelled }

  function NeededColumn(ms: seq<DatedRecord>): (ds: seq<Option<CalendarDate>>)
    ensures |ds| == |ms| && forall i :: 0 <= i < |ms| ==> ds[i] == ms[i].needed
  {
    seq(|ms|, i requires 0 <= i < |ms| => ms[i].needed)
  }

  /** pandas' `first` on one column, stated over the rows: the first
      non-null cell, null only when the whole column is. */
  lemma FirstOfColumn(ms: seq<DatedRecord>, field: DatedRecord -> Cell)
    ensures var c := FirstPresent(Column(ms, field));
      && (c.None? <==> forall j :: 0 <= j < |ms| ==> field(ms[j]).None?)
      && (c.Some? ==> exists j :: 0 <= j < |ms| && field(ms[j]) == c && forall l :: 0 <= l < j ==> field(ms[l]).None?)
  {
    var cs := Column(ms, field);
    var c := FirstPresent(cs);
    if c.Some? {
      var j :| 0 <= j < |cs| && cs[j] == c && forall l :: 0 <= l < j ==> cs[l].None?;
      assert field(ms[j]) == c;
    }
  }

  /** The designation of a group, stated over its rows. */
  lemma SummaryDesignation(ms: seq<DatedRecord>)
    ensures var d := Summarise(ms).designation;
      && (d.None? <==> forall j :: 0 <= j < |ms| ==> ms[j].designation.None?)
      && (d.Some? ==> exists j :: 0 <= j < |ms| && ms[j].designation == d && forall l :: 0 <= l < j ==> ms[l].designation.None?)
  {
    FirstOfColumn(ms, DesignationCell);
  }

  /** The price cell of a group, stated over its rows. */
  lemma SummaryPrice(ms: seq<DatedRecord>)
    ensures var p := Summarise(ms).price;
      && (p.None? <==> forall j :: 0 <= j < |ms| ==> ms[j].price.None?)
      && (p.Some? ==> exists j :: 0 <= j < |ms| && ms[j].price == p && forall l :: 0 <= l < j ==> ms[l].price.None?)
  {
    FirstOfColumn(ms, PriceCell);
  }

  /** The band of a group, stated over its rows. */
  lemma SummaryBand(ms: seq<DatedRecord>)
    ensures var b := Summarise(ms).band;
      && (b.None? <==> forall j :: 0 <= j < |ms| ==> ms[j].band.None?)
      && (b.Some? ==> exists j :: 0 <= j < |ms| && ms[j].band == b && forall l :: 0 <= l < j ==> ms[l].band.None?)
  {
    FirstOfColumn(ms, BandCell);
  }

  /** The date of a group, stated over its rows: the earliest one present,
      NaT only when every row has NaT. */
  lemma SummaryDate(ms: seq<DatedRecord>)
    ensures var n := Summarise(ms).needed;
      && (n.None? <==> forall j :: 0 <= j < |ms| ==> ms[j].needed.None?)
      && (n.Some? ==> exists j :: 0 <= j < |ms| && ms[j].needed == n)
      && (n.Some? ==> forall j :: 0 <= j < |ms| && ms[j].needed.Some? ==> !Before(ms[j].needed.value, n.value))
  {
    var dates := NeededColumn(ms);
    var n := Earliest(dates);
    if n.Some? {
      assert n in dates;
      var j :| 0 <= j < |dates| && dates[j] == n;
      assert ms[j].needed == n;
    }
  }

  /** Lines 52-59: one summarised group per bucket, in bucket order. */
  function GroupAll(bs: seq<Bucket<Option<CalendarDate>>>): (gs: seq<Group>)
    ensures |gs| == |bs|
    ensures forall i :: 0 <= i < |bs| ==> gs[i].key == bs[i].key
  {
    seq(|bs|, i requires 0 <= i < |bs| => Group(bs[i].key, Summarise(bs[i].members)))
  }

  /** The groups of a table of dated rows. */
  function Groups(rs: seq<DatedRecord>): seq<Group> {
    GroupAll(Buckets(rs))
  }

  /** The groups come out sorted by key with no key twice, there is one per
      distinct key, and each summarises exactly the rows carrying its key,
      in input order. */
  lemma GroupsSpec(rs: seq<DatedRecord>)
    ensures forall i, j :: 0 <= i < j < |Groups(rs)| ==> KeyLess(Groups(rs)[i].key, Groups(rs)[j].key)
    ensures |Groups(rs)| == |KeySet(rs)| <= |rs|
    ensures forall k :: k in KeySet(rs) <==> exists i :: 0 <= i < |Groups(rs)| && Groups(rs)[i].key == k
    ensures forall i :: 0 <= i < |Groups(rs)| ==>
      Groups(rs)[i].summary == Summarise(Members(rs, Groups(rs)[i].key))
  {
    var bs := Buckets(rs);
    BucketsPartition(rs);
    forall i | 0 <= i < |bs|
      ensures bs[i].key in KeySet(rs) && bs[i].members == Members(rs, bs[i].key)
    {
      FindInSorted(bs, i);
    }
    forall k | k in KeySet(rs)
      ensures exists i :: 0 <= i < |bs| && bs[i].key == k
    {
      FoundInList(bs, k);
    }
  }

  /** What a group's first designation is, in terms of the input rows: the
      designation of the earliest row of the group that has one, the rows
      before it in the group having none. */
  lemma GroupFirstDesignation(rs: seq<DatedRecord>, k: Key)
    requires k in KeySet(rs)
    ensures var d := Summarise(Members(rs, k)).designation;
      && (d.None? <==> forall i :: 0 <= i < |rs| && KeyOf(rs[i]) == Some(k) ==> rs[i].designation.None?)
  {
    var ms := Members(rs, k);
    var cs := Column(ms, (r: DatedRecord) => r.designation);
    MembersAreRows(rs, k);
    assert forall j :: 0 <= j < |ms| ==> cs[j] == ms[j].designation;
  }

  /** A row belongs to the members of its group, and the members are rows of
      that group. */
  lemma {:induction false} MembersAreRows<D>(rs: seq<Record<D>>, k: Key)
    ensures forall i :: 0 <= i < |rs| && KeyOf(rs[i]) == Some(k) ==> rs[i] in Members(rs, k)
    ensures forall m :: m in Members(rs, k) ==> m in rs && KeyOf(m) == Some(k)
  {
    if |rs| > 0 {
      var prefix := rs[..|rs| - 1];
      MembersAreRows(prefix, k);
      assert forall i :: 0 <= i < |prefix| ==> prefix[i] == rs[i];
      assert forall m :: m in prefix ==> m in rs;
    }
  }

  /** A group's members are its rows counted with their multiplicity. */
  lemma {:induction false} MembersCount<D>(rs: seq<Record<D>>, k: Key, m: Record<D>)
    ensures multiset(Members(rs, k))[m] == if KeyOf(m) == Some(k) then multiset(rs)[m] else 0
  {
    if |rs| > 0 {
      var prefix := rs[..|rs| - 1];
      var last := rs[|rs| - 1];
      MembersCount(prefix, k, m);
      assert rs == prefix + [last];
      assert multiset(rs) == multiset(prefix) + multiset{last};
    }
  }

  /** Reordering the rows of a file changes neither which groups there are
      nor any group's total quantity. */
  lemma RowOrderKeepsTotals(rs: seq<DatedRecord>, shuffled: seq<DatedRecord>, k: Key)
    requires multiset(rs) == multiset(shuffled)
    ensures KeySet(rs) == KeySet(shuffled)
    ensures multiset(Members(rs, k)) == multiset(Members(shuffled, k))
    ensures TotalQuantity(Members(rs, k)) == TotalQuantity(Members(shuffled, k))
  {
    MembersPermutation(rs, shuffled, k);
    TotalQuantityPermutation(Members(rs, k), Members(shuffled, k));
    KeySetPermutation(rs, shuffled);
  }

  lemma MembersPermutation(rs: seq<DatedRecord>, shuffled: seq<DatedRecord>, k: Key)
    requires multiset(rs) == multiset(shuffled)
    ensures multiset(Members(rs, k)) == multiset(Members(shuffled, k))
  {
    var a, b := multiset(Members(rs, k)), multiset(Members(shuffled, k));
    forall m ensures a[m] == b[m] {
      MembersCount(rs, k, m);
      MembersCount(shuffled, k, m);
    }
    assert a == b;
  }

  lemma KeySetPermutation<D>(rs: seq<Record<D>>, shuffled: seq<Record<D>>)
    requires multiset(rs) == multiset(shuffled)
    ensures KeySet(rs) == KeySet(shuffled)
  {
    forall k | k in KeySet(rs) ensures k in KeySet(shuffled) {
      var i :| 0 <= i < |rs| && KeyOf(rs[i]) == Some(k);
      assert rs[i] in multiset(shuffled);
      var j :| 0 <= j < |shuffled| && shuffled[j] == rs[i];
    }
    forall k | k in KeySet(shuffled) ensures k in KeySet(rs) {
      var i :| 0 <= i < |shuffled| && KeyOf(shuffled[i]) == Some(k);
      assert shuffled[i] in multiset(rs);
      var j :| 0 <= j < |rs| && rs[j] == shuffled[i];
    }
  }
}

=== FILE: dates.dfy ===
/** Calendar dates of the "Date besoin" column. Reading a cell into a date
    is pandas' business (`pd.to_datetime`, with format inference) and is a
    parameter of the model; what the normalisation itself does with dates
    is to compare them (the group minimum) and to write them back as
    `DD/MM/YYYY` (`strftime('%d/%m/%Y')`). */
module Dates {
  import opened Wrappers
  import opened Numerals

  datatype Date = Date(year: int, month: int, day: int)

  predicate IsLeapYear(y: int) {
    y % 4 == 0 && (y % 100 != 0 || y % 400 == 0)
  }

  function DaysInMonth(y: int, m: int): int
    requires 1 <= m <= 12
  {
    if m == 2 then (if IsLeapYear(y) then 29 else 28)
    else if m == 4 || m == 6 || m == 9 || m == 11 then 30
    else 31
  }

  /** A day of the Gregorian calendar with a four-digit year, which covers
      every date a pandas timestamp can hold (years 1677 to 2262). */
  predicate Valid(d: Date) {
    && 1000 <= d.year <= 9999
    && 1 <= d.month <= 12
    && 1 <= d.day <= DaysInMonth(d.year, d.month)
  }

  type CalendarDate = d: Date | Valid(d) witness Date(2000, 1, 1)

  /** `a` is strictly earlier than `b`. */
  predicate Before(a: Date, b: Date) {
    || a.year < b.year
    || (a.year == b.year && a.month < b.month)
    || (a.year == b.year && a.month == b.month && a.day < b.day)
  }

  lemma BeforeIsStrictTotalOrder(a: Date, b: Date, c: Date)
    ensures !Before(a, a)
    ensures Before(a, b) && Before(b, c) ==> Before(a, c)
    ensures a == b || Before(a, b) || Before(b, a)
  {
  }

  /** The earlier of two dates: pandas' `min` of two timestamps. */
  function Earlier(a: CalendarDate, b: CalendarDate): (r: CalendarDate)
    ensures r == a || r == b
    ensures !Before(a, r) && !Before(b, r)
  {
    if Before(b, a) then b else a
  }

  /** `strftime('%d/%m/%Y')`: day and month on two digits, the year on four. */
  function Format(d: CalendarDate): (r: string)
    ensures |r| == 10 && r[2] == '/' && r[5] == '/'
    ensures AllDigits(r[..2]) && AllDigits(r[3..5]) && AllDigits(r[6..])
  {
    var text := PadText(d.day as nat, 2) + "/" + PadText(d.month as nat, 2) + "/" + PadText(d.year as nat, 4);
    assert text[..2] == PadText(d.day as nat, 2);
    assert text[3..5] == PadText(d.month as nat, 2);
    assert text[6..] == PadText(d.year as nat, 4);
    text
  }

  /** Reads back the `DD/MM/YYYY` form `Format` writes: the day-first reading
      a French supplier file means. */
  function ReadDayFirst(s: string): (r: Option<CalendarDate>)
  {
    if |s| == 10 && s[2] == '/' && s[5] == '/' && AllDigits(s[..2]) && AllDigits(s[3..5]) && AllDigits(s[6..]) then
      var d := Date(DigitsValue(s[6..]), DigitsValue(s[3..5]), DigitsValue(s[..2]));
      if Valid(d) then Some(d) else None
    else None
  }

  /** Writing a date and reading it day first gives the date back, so the
      rendering loses nothing and two distinct dates never share a text. */
  lemma FormatReadsBack(d: CalendarDate)
    ensures ReadDayFirst(Format(d)) == Some(d)
  {
    var r := Format(d);
    assert r[..2] == PadText(d.day as nat, 2);
    assert r[3..5] == PadText(d.month as nat, 2);
    assert r[6..] == PadText(d.year as nat, 4);
  }

  lemma FormatInjective(a: CalendarDate, b: CalendarDate)
    requires Format(a) == Format(b)
    ensures a == b
  {
    FormatReadsBack(a);
    FormatReadsBack(b);
  }
}

=== FILE: decimals.dfy ===
/** Exact decimal numbers, standing for the floats pandas computes with.
    A `Decimal(m, s)` denotes m / 10^s; two representations of the same
    number (1,50 and 1,5) are distinct values that `Value` identifies. */
module Decimals {
  import opened Wrappers
  import opened Numerals
  import Text

  datatype Decimal = Decimal(mantissa: int, scale: nat)

  const Zero := Decimal(0, 0)

  /** The number a decimal denotes. */
  function Value(d: Decimal): real {
    d.mantissa as real / Pow10(d.scale) as real
  }

  /** The mantissa of `d` rewritten at the finer scale `s`. */
  function Aligned(d: Decimal, s: nat): int
    requires d.scale <= s
  {
    d.mantissa * Pow10(s - d.scale)
  }

  function Max(a: nat, b: nat): nat {
    if a < b then b else a
  }

  /** Exact addition, at the finer of the two scales. */
  function Add(a: Decimal, b: Decimal): Decimal {
    var s := Max(a.scale, b.scale);
    Decimal(Aligned(a, s) + Aligned(b, s), s)
  }

  lemma ScaleCancels(m: int, p: nat, q: nat)
    requires p > 0 && q > 0
    ensures (m * q) as real / (p * q) as real == m as real / p as real
  {
    var x := m as real / p as real;
    assert m as real == x * p as real;
    assert (m * q) as real == x * (p * q) as real;
  }

  lemma AlignedValue(d: Decimal, s: nat)
    requires d.scale <= s
    ensures Aligned(d, s) as real / Pow10(s) as real == Value(d)
  {
    Pow10Add(d.scale, s - d.scale);
    ScaleCancels(d.mantissa, Pow10(d.scale), Pow10(s - d.scale));
  }

  /** Addition is exact: the sum denotes the sum of the numbers. */
  lemma AddValue(a: Decimal, b: Decimal)
    ensures Value(Add(a, b)) == Value(a) + Value(b)
  {
    var s := Max(a.scale, b.scale);
    AlignedValue(a, s);
    AlignedValue(b, s);
    DivideSum(Aligned(a, s) as real, Aligned(b, s) as real, Pow10(s) as real);
  }

  lemma DivideSum(x: real, y: real, p: real)
    requires p > 0.0
    ensures (x + y) / p == x / p + y / p
  {
    var qx, qy := x / p, y / p;
    assert x == qx * p && y == qy * p;
    assert x + y == (qx + qy) * p;
  }

  lemma AddCommutes(a: Decimal, b: Decimal)
    ensures Add(a, b) == Add(b, a)
  {
  }

  lemma AddZero(d: Decimal)
    ensures Add(Zero, d) == d && Add(d, Zero) == d
  {
  }

  lemma AlignedTwice(d: Decimal, s1: nat, s: nat)
    requires d.scale <= s1 <= s
    ensures Aligned(Decimal(Aligned(d, s1), s1), s) == Aligned(d, s)
  {
    Pow10Add(s1 - d.scale, s - s1);
    var m, p, q := d.mantissa, Pow10(s1 - d.scale), Pow10(s - s1);
    assert (m * p) * q == m * (p * q);
  }

  /** Addition is associative on representations, not only on values: the
      order in which quantities are summed changes nothing. */
  lemma AddAssociates(a: Decimal, b: Decimal, c: Decimal)
    ensures Add(Add(a, b), c) == Add(a, Add(b, c))
  {
    var s := Max(Max(a.scale, b.scale), c.scale);
    var ab, bc := Max(a.scale, b.scale), Max(b.scale, c.scale);
    AlignedTwice(a, ab, s);
    AlignedTwice(b, ab, s);
    AlignedTwice(b, bc, s);
    AlignedTwice(c, bc, s);
    var pab, pbc := Pow10(s - ab), Pow10(s - bc);
    assert (Aligned(a, ab) + Aligned(b, ab)) * pab == Aligned(a, ab) * pab + Aligned(b, ab) * pab;
    assert (Aligned(b, bc) + Aligned(c, bc)) * pbc == Aligned(b, bc) * pbc + Aligned(c, bc) * pbc;
  }

  /** The number has no fractional part: Python's `x == int(x)`. */
  predicate IsIntegral(d: Decimal) {
    d.mantissa % Pow10(d.scale) == 0
  }

  /** The shortest representation: trailing zeros of the fraction dropped. */
  function Shortest(d: Decimal): (r: Decimal)
    ensures Value(r) == Value(d)
    ensures r.scale <= d.scale
    ensures r.scale > 0 ==> r.mantissa % 10 != 0
    decreases d.scale
  {
    if d.scale > 0 && d.mantissa % 10 == 0 then
      var shorter := Decimal(d.mantissa / 10, d.scale - 1);
      DropZeroValue(d);
      Shortest(shorter)
    else d
  }

  lemma DropZeroValue(d: Decimal)
    requires d.scale > 0 && d.mantissa % 10 == 0
    ensures Value(Decimal(d.mantissa / 10, d.scale - 1)) == Value(d)
  {
    var k := d.mantissa / 10;
    assert d.mantissa == k * 10;
    ScaleCancels(k, Pow10(d.scale - 1), 10);
  }

  lemma ExactDivision(k: int, p: nat)
    requires p > 0
    ensures (k * p) / p == k && (k * p) % p == 0
  {
    var q, r := (k * p) / p, (k * p) % p;
    assert k * p == q * p + r && 0 <= r < p;
    assert (k - q) * p == r;
    if k - q >= 1 {
      MulNonnegative(k - q - 1, p);
    } else if k - q <= -1 {
      MulNonnegative(q - k - 1, p);
    }
  }

  lemma MulNonnegative(a: int, b: int)
    requires a >= 0 && b >= 0
    ensures a * b >= 0
  {
  }

  /** A decimal is integral exactly when its shortest form has no fraction
      digits, and that form is then the integer `int(x)`. */
  lemma {:induction false} IntegralShortest(d: Decimal)
    ensures IsIntegral(d) <==> Shortest(d).scale == 0
    ensures IsIntegral(d) ==> Shortest(d) == Decimal(d.mantissa / Pow10(d.scale), 0)
    decreases d.scale
  {
    var m, s := d.mantissa, d.scale;
    if s > 0 {
      if IsIntegral(d) {
        IntegralStep(m, s);
        IntegralShortest(Decimal(m / 10, s - 1));
      } else if m % 10 == 0 {
        FractionStep(m, s);
        IntegralShortest(Decimal(m / 10, s - 1));
      }
    }
  }

  /** Dropping a trailing zero of an integral decimal keeps it integral and
      keeps its integer value. */
  lemma IntegralStep(m: int, s: nat)
    requires s > 0 && m % Pow10(s) == 0
    ensures m % 10 == 0 && (m / 10) % Pow10(s - 1) == 0
    ensures (m / 10) / Pow10(s - 1) == m / Pow10(s)
  {
    var p := Pow10(s - 1);
    var k := m / Pow10(s);
    assert m == Pow10(s) * k;
    assert m == (p * k) * 10;
    ExactDivision(p * k, 10);
    ExactDivision(k, p);
  }

  /** Dropping a trailing zero of a decimal with a fraction leaves a fraction. */
  lemma FractionStep(m: int, s: nat)
    requires s > 0 && m % 10 == 0 && m % Pow10(s) != 0
    ensures (m / 10) % Pow10(s - 1) != 0
  {
    var p := Pow10(s - 1);
    if (m / 10) % p == 0 {
      var k := (m / 10) / p;
      assert m / 10 == p * k;
      assert m == (p * k) * 10;
      assert m == k * Pow10(s);
      ExactDivision(k, Pow10(s));
      assert false;
    }
  }

  function Abs(n: int): nat {
    if n < 0 then -n else n
  }

  /** Python's `str(n)` for an integer. */
  function IntText(n: int): (r: string)
    ensures |r| >= 1
    ensures r[|r| - 1] in "0123456789"
    ensures forall i :: 0 <= i < |r| ==> r[i] in "-0123456789"
  {
    var digits := NatText(Abs(n));
    assert digits[|digits| - 1] in "0123456789";
    assert forall i :: 0 <= i < |digits| ==> digits[i] in "0123456789";
    if n < 0 then "-" + digits else digits
  }

  /** Python's `str(x)` for a float with a fractional part, in positional
      notation: sign, integer part, '.', fraction digits of `d`. */
  function PointText(d: Decimal): (r: string)
    requires d.scale > 0
  {
    var a := Abs(d.mantissa);
    var p := Pow10(d.scale);
    DivMod(a, p);
    (if d.mantissa < 0 then "-" else "") + NatText(a / p) + "." + PadText(a % p, d.scale)
  }

  /** The position of the first `c` in `s`, or `|s|` when there is none. */
  function IndexOf(s: string, c: char): (i: nat)
    ensures i <= |s|
    ensures i < |s| ==> s[i] == c
    ensures forall k :: 0 <= k < i ==> s[k] != c
  {
    if |s| == 0 then 0
    else if s[0] == c then 0
    else 1 + IndexOf(s[1..], c)
  }

  /** The characters a text that `float` accepts may contain. */
  predicate IsNumeralChar(c: char) {
    IsDigit(c) || c == '.' || c == '-' || c == '+'
  }

  /** The number in `s` as `float(s)` reads it: surrounding characters
      satisfying `space` ignored, then an optional sign, digits, at most one
      '.', and at least one digit. `None` where `float` raises. */
  function ParseDecimal(s: string, space: char -> bool): Option<Decimal> {
    var b := Text.StripBounds(s, space);
    ParseNumeral(s[b.0..b.1])
  }

  /** A numeral without surrounding space: an optional sign, then digits. */
  function ParseNumeral(t: string): Option<Decimal> {
    var signed := |t| > 0 && (t[0] == '-' || t[0] == '+');
    var body := if signed then t[1..] else t;
    match ParseUnsigned(body)
    case None => None
    case Some(d) => Some(if signed && t[0] == '-' then Decimal(-d.mantissa, d.scale) else d)
  }

  /** Digits with at most one '.', and at least one digit. */
  function ParseUnsigned(body: string): Option<Decimal> {
    var dot := IndexOf(body, '.');
    var whole := body[..dot];
    var frac := if dot < |body| then body[dot + 1..] else "";
    if AllDigits(whole) && AllDigits(frac) && |whole| + |frac| > 0 then
      DigitsValueAppend(whole, frac);
      Some(Decimal(DigitsValue(whole + frac), |frac|))
    else None
  }

  /** A text `float` accepts holds nothing but digits, signs, points and
      whitespace: in particular a decimal comma makes the conversion fail. */
  lemma ParseDecimalCharacters(s: string, space: char -> bool)
    ensures ParseDecimal(s, space).Some? ==>
              forall i :: 0 <= i < |s| ==> IsNumeralChar(s[i]) || space(s[i])
  {
    var b := Text.StripBounds(s, space);
    var t := s[b.0..b.1];
    if ParseNumeral(t).Some? {
      NumeralCharacters(t);
      CoreCharacters(s, space, b.0, b.1);
    }
  }

  lemma CoreCharacters(s: string, space: char -> bool, lo: nat, hi: nat)
    requires lo <= hi <= |s|
    requires forall k :: 0 <= k < lo ==> space(s[k])
    requires forall k :: hi <= k < |s| ==> space(s[k])
    requires forall k :: 0 <= k < hi - lo ==> IsNumeralChar(s[lo..hi][k])
    ensures forall i :: 0 <= i < |s| ==> IsNumeralChar(s[i]) || space(s[i])
  {
    forall i | lo <= i < hi
      ensures IsNumeralChar(s[i])
    {
      assert s[i] == s[lo..hi][i - lo];
    }
  }

  lemma NumeralCharacters(t: string)
    ensures ParseNumeral(t).Some? ==> forall i :: 0 <= i < |t| ==> IsNumeralChar(t[i])
  {
    var signed := |t| > 0 && (t[0] == '-' || t[0] == '+');
    var body := if signed then t[1..] else t;
    UnsignedCharacters(body);
    if signed {
      forall i | 0 < i < |t|
        ensures t[i] == body[i - 1]
      {
      }
    }
  }

  lemma UnsignedCharacters(body: string)
    ensures ParseUnsigned(body).Some? ==>
              forall i :: 0 <= i < |body| ==> IsDigit(body[i]) || body[i] == '.'
  {
    var dot := IndexOf(body, '.');
    var whole := body[..dot];
    var frac := if dot < |body| then body[dot + 1..] else "";
    if ParseUnsigned(body).Some? {
      forall i | 0 <= i < |body| && i != dot
        ensures IsDigit(body[i])
      {
        if i < dot {
          assert body[i] == whole[i];
        } else {
          assert body[i] == frac[i - dot - 1];
        }
      }
    }
  }
}

=== FILE: frame.dfy ===
/** The table pandas hands to the normalisation, and its first steps
    (composants/streamlit_app.py, lines 13-46): choosing the reader from the
    file name, keeping the eight required columns, adding the empty
    "Annulé" column and renaming "Réf Fournisseur" to "Référence". */
module Frame {
  import opened Wrappers
  import Text

  /** A cell as pandas reads it with `dtype=str`: a text, or `None` for NaN
      (an empty field, or one of pandas' own null markers). */
  type Cell = Option<string>

  /** A parsed sheet: column names, then rows of cells. */
  datatype Table = Table(columns: seq<string>, rows: seq<seq<Cell>>)

  /** What every DataFrame read from a file satisfies: the readers give
      repeated header names distinct suffixes, and every row has one cell
      per column. */
  predicate WellFormed(t: Table) {
    && (forall i, j :: 0 <= i < j < |t.columns| ==> t.columns[i] != t.columns[j])
    && (forall r :: r in t.rows ==> |r| == |t.columns|)
  }

  type Sheet = t: Table | WellFormed(t) witness Table([], [])

  /** The reader chosen for an upload. */
  datatype Format = Spreadsheet | SemicolonCsv

  /** The last five characters spell ".xlsx" in any mix of cases. */
  predicate HasXlsxSuffix(name: string) {
    && |name| >= 5 && name[|name| - 5] == '.'
    && (name[|name| - 4] == 'x' || name[|name| - 4] == 'X')
    && (name[|name| - 3] == 'l' || name[|name| - 3] == 'L')
    && (name[|name| - 2] == 's' || name[|name| - 2] == 'S')
    && (name[|name| - 1] == 'x' || name[|name| - 1] == 'X')
  }

  /** Line 14: `.xlsx` files, whatever the case of the suffix, go to the
      spreadsheet reader; every other name is read as CSV with separator ';'
      (line 23). */
  function Dispatch(name: string): (f: Format)
    ensures f == Spreadsheet <==> HasXlsxSuffix(name)
  {
    LowerSuffix(name);
    if Text.EndsWith(Text.LowerAscii(name), ".xlsx") then Spreadsheet else SemicolonCsv
  }

  lemma LowerSuffix(name: string)
    ensures Text.EndsWith(Text.LowerAscii(name), ".xlsx") <==> HasXlsxSuffix(name)
  {
    var lower := Text.LowerAscii(name);
    if |name| >= 5 {
      var n := |name|;
      var tail := lower[n - 5..];
      FiveChars(tail, ".xlsx");
      assert tail[0] == Text.LowerChar(name[n - 5]) && tail[1] == Text.LowerChar(name[n - 4]);
      assert tail[2] == Text.LowerChar(name[n - 3]) && tail[3] == Text.LowerChar(name[n - 2]);
      assert tail[4] == Text.LowerChar(name[n - 1]);
    }
  }

  lemma FiveChars(a: string, b: string)
    requires |a| == 5 && |b| == 5
    ensures a == b <==> a[0] == b[0] && a[1] == b[1] && a[2] == b[2] && a[3] == b[3] && a[4] == b[4]
  {
    if a[0] == b[0] && a[1] == b[1] && a[2] == b[2] && a[3] == b[3] && a[4] == b[4] {
      assert forall i :: 0 <= i < 5 ==> a[i] == b[i];
    }
  }

  const SupplierRef := "Réf Fournisseur"
  const Designation := "Désignation"
  const DateNeeded := "Date besoin"
  const Version := "Version"
  const Ebauche := "Ebauche"
  const Quantity := "Qté"
  const Price := "Prix"
  const Band := "Bande"

  /** Lines 26-35, in the order the source lists them. */
  const Required: seq<string> :=
    [SupplierRef, Designation, DateNeeded, Version, Ebauche, Quantity, Price, Band]

  /** Why a file produces no output. */
  datatype Error =
    | UnreadableSpreadsheet              // read_excel raised (lines 18-21)
    | UnreadableCsv                      // read_csv raised (line 23)
    | MissingColumns(names: seq<string>) // the selection at line 36 raised KeyError
    | PriceNotNumeric(text: string)      // astype(float) raised (line 67)
    | PriceMissing                       // int(NaN) raised inside format_prix (line 69)

  /** One row after lines 36-46: the eight kept cells under their new names
      plus "Annulé". `D` is the type of the "Date besoin" cell: text at
      first, a date once line 49 has converted the column. */
  datatype Record<D> = Record(
    reference: Cell,     // "Référence", formerly "Réf Fournisseur"
    designation: Cell,   // "Désignation"
    needed: D,           // "Date besoin"
    version: Cell,       // "Version"
    ebauche: Cell,       // "Ebauche"
    quantity: Cell,      // "Qté"
    price: Cell,         // "Prix"
    band: Cell,          // "Bande"
    cancelled: Cell      // "Annulé"
  )

  /** The required columns absent from `columns`, in the order of `Required`:
      what pandas names in the KeyError. */
  function Missing(columns: seq<string>): (r: seq<string>)
    ensures forall c :: c in r <==> c in Required && c !in columns
  {
    MissingFrom(Required, columns)
  }

  /** `a` is `b` with some elements left out, the rest kept in order. */
  predicate SubsequenceOf<T(==)>(a: seq<T>, b: seq<T>)
  {
    if |a| == 0 then true
    else if |b| == 0 then false
    else (a[0] == b[0] && SubsequenceOf(a[1..], b[1..])) || SubsequenceOf(a, b[1..])
  }

  function MissingFrom(wanted: seq<string>, columns: seq<string>): (r: seq<string>)
    ensures forall c :: c in r <==> c in wanted && c !in columns
  {
    if |wanted| == 0 then []
    else (if wanted[0] in columns then [] else [wanted[0]]) + MissingFrom(wanted[1..], columns)
  }

  /** The missing columns are named in the order of `Required`, the order of
      the selection that pandas reports. */
  lemma MissingKeepsOrder(columns: seq<string>)
    ensures SubsequenceOf(Missing(columns), Required)
  {
    MissingFromKeepsOrder(Required, columns);
  }

  lemma {:induction false} MissingFromKeepsOrder(wanted: seq<string>, columns: seq<string>)
    ensures SubsequenceOf(MissingFrom(wanted, columns), wanted)
  {
    if |wanted| > 0 {
      var rest := MissingFrom(wanted[1..], columns);
      MissingFromKeepsOrder(wanted[1..], columns);
      if wanted[0] in columns {
        assert MissingFrom(wanted, columns) == rest;
      } else {
        assert MissingFrom(wanted, columns) == [wanted[0]] + rest;
        assert ([wanted[0]] + rest)[1..] == rest;
      }
    }
  }

  /** The position of column `name`. */
  function Position(columns: seq<string>, name: string): (i: nat)
    requires name in columns
    ensures i < |columns| && columns[i] == name
  {
    if columns[0] == name then 0 else 1 + Position(columns[1..], name)
  }

  /** The cell of row `i` under column `name`. */
  function At(t: Sheet, i: nat, name: string): Cell
    requires i < |t.rows| && name in t.columns
  {
    assert t.rows[i] in t.rows;
    t.rows[i][Position(t.columns, name)]
  }

  lemma NothingMissing(columns: seq<string>)
    requires |Missing(columns)| == 0
    ensures forall c :: c in Required ==> c in columns
    ensures SupplierRef in columns && Designation in columns && DateNeeded in columns
    ensures Version in columns && Ebauche in columns && Quantity in columns
    ensures Price in columns && Band in columns
  {
    assert Required[0] == SupplierRef && Required[1] == Designation && Required[2] == DateNeeded;
    assert Required[3] == Version && Required[4] == Ebauche && Required[5] == Quantity;
    assert Required[6] == Price && Required[7] == Band;
  }

  /** Lines 26-46: the projected, renamed rows, or the KeyError of line 36
      when a required column is absent. */
  function Project(t: Sheet): (r: Result<seq<Record<Cell>>, Error>)
    ensures r.Err? <==> exists c :: c in Required && c !in t.columns
    ensures r.Err? ==> r.error == MissingColumns(Missing(t.columns)) && |r.error.names| > 0
    ensures r.Ok? ==> |r.value| == |t.rows|
    ensures r.Ok? ==> forall i :: 0 <= i < |t.rows| ==>
      var rec := r.value[i];
      && rec.reference == At(t, i, SupplierRef)
      && rec.designation == At(t, i, Designation)
      && rec.needed == At(t, i, DateNeeded)
      && rec.version == At(t, i, Version)
      && rec.ebauche == At(t, i, Ebauche)
      && rec.quantity == At(t, i, Quantity)
      && rec.price == At(t, i, Price)
      && rec.band == At(t, i, Band)
      && rec.cancelled == Some("")
  {
    var missing := Missing(t.columns);
    if |missing| > 0 then
      assert missing[0] in missing;
      Err(MissingColumns(missing))
    else
      NothingMissing(t.columns);
      Ok(seq(|t.rows|, i requires 0 <= i < |t.rows| =>
        Record(
          At(t, i, SupplierRef), At(t, i, Designation), At(t, i, DateNeeded),
          At(t, i, Version), At(t, i, Ebauche), At(t, i, Quantity), At(t, i, Price),
          At(t, i, Band), Some(""))))
  }
}

=== FILE: grouping.dfy ===
/** The partition of line 52, `df.groupby(['Référence', 'Ebauche',
    'Version'])`, with pandas' defaults: a row whose key has a null cell
    joins no group, and groups come out sorted by key. The model keeps an
    association list of buckets sorted by key and drops each row into its
    bucket in input order. */
module Grouping {
  import opened Wrappers
  import opened Frame
  import Text

  /** The group-by key, in the order of the `groupby` column list. */
  datatype Key = Key(reference: string, ebauche: string, version: string)

  /** Python's order on key tuples: lexicographic over the three texts. */
  predicate KeyLess(a: Key, b: Key) {
    || Text.Less(a.reference, b.reference)
    || (a.reference == b.reference && Text.Less(a.ebauche, b.ebauche))
    || (a.reference == b.reference && a.ebauche == b.ebauche && Text.Less(a.version, b.version))
  }

  lemma KeyLessIrreflexive(a: Key)
    ensures !KeyLess(a, a)
  {
    Text.LessIrreflexive(a.reference);
    Text.LessIrreflexive(a.ebauche);
    Text.LessIrreflexive(a.version);
  }

  lemma KeyLessTransitive(a: Key, b: Key, c: Key)
    requires KeyLess(a, b) && KeyLess(b, c)
    ensures KeyLess(a, c)
  {
    if Text.Less(a.reference, b.reference) && Text.Less(b.reference, c.reference) {
      Text.LessTransitive(a.reference, b.reference, c.reference);
    }
    if Text.Less(a.ebauche, b.ebauche) && Text.Less(b.ebauche, c.ebauche) {
      Text.LessTransitive(a.ebauche, b.ebauche, c.ebauche);
    }
    if Text.Less(a.version, b.version) && Text.Less(b.version, c.version) {
      Text.LessTransitive(a.version, b.version, c.version);
    }
  }

  lemma KeyLessTrichotomy(a: Key, b: Key)
    ensures a == b || KeyLess(a, b) || KeyLess(b, a)
  {
    Text.LessTrichotomy(a.reference, b.reference);
    Text.LessTrichotomy(a.ebauche, b.ebauche);
    Text.LessTrichotomy(a.version, b.version);
  }

  lemma KeyLessAsymmetric(a: Key, b: Key)
    requires KeyLess(a, b)
    ensures !KeyLess(b, a) && a != b
  {
    if KeyLess(b, a) {
      KeyLessTransitive(a, b, a);
      KeyLessIrreflexive(a);
    }
    KeyLessIrreflexive(a);
  }

  /** The key of a row, or `None` when one of its three cells is null. */
  function KeyOf<D>(r: Record<D>): Option<Key> {
    if r.reference.Some? && r.ebauche.Some? && r.version.Some? then
      Some(Key(r.reference.value, r.ebauche.value, r.version.value))
    else None
  }

  /** The rows of group `k`, in input order. */
  function Members<D>(rs: seq<Record<D>>, k: Key): (ms: seq<Record<D>>)
    ensures |ms| <= |rs|
    ensures forall i :: 0 <= i < |ms| ==> KeyOf(ms[i]) == Some(k)
  {
    if |rs| == 0 then []
    else
      var last := rs[|rs| - 1];
      Members(rs[..|rs| - 1], k) + (if KeyOf(last) == Some(k) then [last] else [])
  }

  /** The distinct keys of the rows that have one. */
  function KeySet<D>(rs: seq<Record<D>>): (ks: set<Key>)
    ensures forall k :: k in ks <==> exists i :: 0 <= i < |rs| && KeyOf(rs[i]) == Some(k)
  {
    if |rs| == 0 then {}
    else
      var prefix := rs[..|rs| - 1];
      var here := match KeyOf(rs[|rs| - 1]) case None => {} case Some(k) => {k};
      var ks := KeySet(prefix) + here;
      assert forall i :: 0 <= i < |prefix| ==> prefix[i] == rs[i];
      ks
  }

  /** A group under construction: its key and its rows so far. */
  datatype Bucket<D> = Bucket(key: Key, members: seq<Record<D>>)

  predicate StrictlySorted<D>(bs: seq<Bucket<D>>) {
    forall i, j :: 0 <= i < j < |bs| ==> KeyLess(bs[i].key, bs[j].key)
  }

  /** `x` comes before every key of `bs`. */
  predicate Below<D>(x: Key, bs: seq<Bucket<D>>) {
    forall i :: 0 <= i < |bs| ==> KeyLess(x, bs[i].key)
  }

  /** The rows gathered under `k`, if there is a bucket for it. */
  function Find<D>(bs: seq<Bucket<D>>, k: Key): Option<seq<Record<D>>> {
    if |bs| == 0 then None
    else if bs[0].key == k then Some(bs[0].members)
    else Find(bs[1..], k)
  }

  /** The rows gathered under `k`, or none. */
  function Gathered<D>(bs: seq<Bucket<D>>, k: Key): seq<Record<D>> {
    match Find(bs, k)
    case None => []
    case Some(ms) => ms
  }

  /** Drops row `r` with key `k` into its bucket, opening the bucket at its
      place in key order when it is the first row of its group. */
  function Place<D>(bs: seq<Bucket<D>>, k: Key, r: Record<D>): seq<Bucket<D>> {
    if |bs| == 0 then [Bucket(k, [r])]
    else if bs[0].key == k then [Bucket(k, bs[0].members + [r])] + bs[1..]
    else if KeyLess(k, bs[0].key) then [Bucket(k, [r])] + bs
    else [bs[0]] + Place(bs[1..], k, r)
  }

  lemma {:induction false} PlaceKeepsOrder<D>(bs: seq<Bucket<D>>, k: Key, r: Record<D>)
    requires StrictlySorted(bs)
    ensures StrictlySorted(Place(bs, k, r))
    ensures forall x :: KeyLess(x, k) && Below(x, bs) ==> Below(x, Place(bs, k, r))
    ensures |Place(bs, k, r)| == |bs| + (if Find(bs, k).Some? then 0 else 1)
    ensures forall k' :: Find(Place(bs, k, r), k') == (if k' == k then Some(Gathered(bs, k) + [r]) else Find(bs, k'))
  {
    var p := Place(bs, k, r);
    if |bs| == 0 {
      assert Gathered(bs, k) + [r] == [r];
    } else if bs[0].key == k {
      assert p[1..] == bs[1..];
      forall k' | k' != k
        ensures Find(p, k') == Find(bs, k')
      {
      }
    } else if KeyLess(k, bs[0].key) {
      forall i | 0 <= i < |bs|
        ensures KeyLess(k, bs[i].key)
      {
        if i > 0 {
          KeyLessTransitive(k, bs[0].key, bs[i].key);
        }
      }
      assert p[1..] == bs;
      SortedMisses(bs, k);
      forall k' ensures Find(p, k') == (if k' == k then Some(Gathered(bs, k) + [r]) else Find(bs, k')) {
        if k' == k {
          assert Gathered(bs, k) + [r] == [r];
        }
      }
    } else {
      var rest := bs[1..];
      PlaceKeepsOrder(rest, k, r);
      KeyLessTrichotomy(k, bs[0].key);
      assert Below(bs[0].key, rest);
      assert p[1..] == Place(rest, k, r);
      forall x | KeyLess(x, k) && Below(x, bs)
        ensures Below(x, p)
      {
        assert Below(x, rest);
      }
    }
  }

  /** A key below every bucket has no bucket. */
  lemma SortedMisses<D>(bs: seq<Bucket<D>>, k: Key)
    requires Below(k, bs)
    ensures Find(bs, k) == None
  {
    if |bs| > 0 {
      KeyLessIrreflexive(k);
      SortedMisses(bs[1..], k);
    }
  }

  /** Lines 52-59 before the reductions: every keyed row dropped, in input
      order, into the bucket of its key. */
  function Buckets<D>(rs: seq<Record<D>>): seq<Bucket<D>> {
    if |rs| == 0 then []
    else
      var before := Buckets(rs[..|rs| - 1]);
      var last := rs[|rs| - 1];
      match KeyOf(last)
      case None => before
      case Some(k) => Place(before, k, last)
  }

  /** The buckets are sorted by key, there is one per distinct key, and each
      holds exactly the rows of its group in input order. */
  lemma {:induction false} BucketsPartition<D>(rs: seq<Record<D>>)
    ensures StrictlySorted(Buckets(rs))
    ensures forall k :: Find(Buckets(rs), k) == if k in KeySet(rs) then Some(Members(rs, k)) else None
    ensures |Buckets(rs)| == |KeySet(rs)| <= |rs|
  {
    if |rs| > 0 {
      var prefix := rs[..|rs| - 1];
      var last := rs[|rs| - 1];
      BucketsPartition(prefix);
      match KeyOf(last)
      case None =>
        assert Buckets(rs) == Buckets(prefix);
        assert KeySet(rs) == KeySet(prefix);
        forall k ensures Members(rs, k) == Members(prefix, k) {
          assert Members(rs, k) == Members(prefix, k) + [];
        }
      case Some(k) =>
        KeyedStep(rs, k);
    }
  }

  /** The step of `BucketsPartition` for a last row with key `k`. */
  lemma KeyedStep<D>(rs: seq<Record<D>>, k: Key)
    requires |rs| > 0 && KeyOf(rs[|rs| - 1]) == Some(k)
    requires var prefix := rs[..|rs| - 1];
      && StrictlySorted(Buckets(prefix))
      && (forall k' :: Find(Buckets(prefix), k') == if k' in KeySet(prefix) then Some(Members(prefix, k')) else None)
      && |Buckets(prefix)| == |KeySet(prefix)| <= |prefix|
    ensures StrictlySorted(Buckets(rs))
    ensures forall k' :: Find(Buckets(rs), k') == if k' in KeySet(rs) then Some(Members(rs, k')) else None
    ensures |Buckets(rs)| == |KeySet(rs)| <= |rs|
  {
    var prefix := rs[..|rs| - 1];
    var last := rs[|rs| - 1];
    var before := Buckets(prefix);
    assert Buckets(rs) == Place(before, k, last);
    PlaceKeepsOrder(before, k, last);
    assert KeySet(rs) == KeySet(prefix) + {k};
    forall k' ensures Find(Buckets(rs), k') == if k' in KeySet(rs) then Some(Members(rs, k')) else None {
      KeyedFind(rs, k, k');
    }
  }

  lemma KeyedFind<D>(rs: seq<Record<D>>, k: Key, k': Key)
    requires |rs| > 0 && KeyOf(rs[|rs| - 1]) == Some(k)
    requires var prefix := rs[..|rs| - 1];
      Find(Buckets(prefix), k') == if k' in KeySet(prefix) then Some(Members(prefix, k')) else None
    requires var prefix := rs[..|rs| - 1];
      Find(Buckets(prefix), k) == if k in KeySet(prefix) then Some(Members(prefix, k)) else None
    requires var prefix := rs[..|rs| - 1];
      Find(Buckets(rs), k') == if k' == k then Some(Gathered(Buckets(prefix), k) + [rs[|rs| - 1]]) else Find(Buckets(prefix), k')
    ensures Find(Buckets(rs), k') == if k' in KeySet(rs) then Some(Members(rs, k')) else None
  {
    var prefix := rs[..|rs| - 1];
    assert KeySet(rs) == KeySet(prefix) + {k};
    if k' == k {
      if k !in KeySet(prefix) {
        MembersOutside(prefix, k);
      }
    } else {
      assert KeyOf(rs[|rs| - 1]) != Some(k');
      assert Members(rs, k') == Members(prefix, k') + [];
      assert Members(prefix, k') + [] == Members(prefix, k');
      assert k' in KeySet(rs) <==> k' in KeySet(prefix);
    }
  }

  /** A key no row carries has no members. */
  lemma {:induction false} MembersOutside<D>(rs: seq<Record<D>>, k: Key)
    requires k !in KeySet(rs)
    ensures Members(rs, k) == []
  {
    if |rs| > 0 {
      var prefix := rs[..|rs| - 1];
      assert forall i :: 0 <= i < |prefix| ==> prefix[i] == rs[i];
      assert KeyOf(rs[|rs| - 1]) != Some(k);
      MembersOutside(prefix, k);
    }
  }

  /** In a sorted list each bucket is the one `Find` returns for its key. */
  lemma {:induction false} FindInSorted<D>(bs: seq<Bucket<D>>, i: nat)
    requires StrictlySorted(bs) && i < |bs|
    ensures Find(bs, bs[i].key) == Some(bs[i].members)
  {
    if i > 0 {
      KeyLessAsymmetric(bs[0].key, bs[i].key);
      FindInSorted(bs[1..], i - 1);
    }
  }

  /** A key with a bucket is the key of some position in the list. */
  lemma {:induction false} FoundInList<D>(bs: seq<Bucket<D>>, k: Key)
    requires Find(bs, k).Some?
    ensures exists i :: 0 <= i < |bs| && bs[i].key == k
  {
    if bs[0].key != k {
      FoundInList(bs[1..], k);
      var i :| 0 <= i < |bs[1..]| && bs[1..][i].key == k;
      assert bs[i + 1].key == k;
    }
  }
}

=== FILE: numerals.dfy ===
/** Decimal numerals: powers of ten, the digit strings that Python's `str`
    and `strftime` produce, and the value a digit string denotes. */
module Numerals {

  function Pow10(n: nat): (r: nat)
    ensures r >= 1
  {
    if n == 0 then 1 else 10 * Pow10(n - 1)
  }

  lemma {:induction false} Pow10Add(a: nat, b: nat)
    ensures Pow10(a + b) == Pow10(a) * Pow10(b)
    decreases b
  {
    if b > 0 {
      Pow10Add(a, b - 1);
      calc {
        Pow10(a + b);
        10 * Pow10(a + b - 1);
        10 * (Pow10(a) * Pow10(b - 1));
        Pow10(a) * (10 * Pow10(b - 1));
      }
    }
  }

  lemma DivMod(a: nat, p: nat)
    requires p > 0
    ensures a / p >= 0 && 0 <= a % p < p
    ensures a == (a / p) * p + a % p
  {
  }

  predicate IsDigit(c: char) {
    '0' <= c <= '9'
  }

  predicate AllDigits(s: string) {
    forall i :: 0 <= i < |s| ==> IsDigit(s[i])
  }

  function DigitChar(d: nat): (c: char)
    requires d < 10
    ensures IsDigit(c)
  {
    ['0', '1', '2', '3', '4', '5', '6', '7', '8', '9'][d]
  }

  function DigitOf(c: char): (d: nat)
    requires IsDigit(c)
    ensures d < 10 && DigitChar(d) == c
  {
    (c as int - '0' as int) as nat
  }

  /** The number a string of decimal digits denotes (most significant first). */
  function DigitsValue(s: string): (n: nat)
    requires AllDigits(s)
    ensures n < Pow10(|s|)
  {
    if |s| == 0 then 0
    else DigitsValue(s[..|s| - 1]) * 10 + DigitOf(s[|s| - 1])
  }

  /** Reading a concatenation shifts the left part by the length of the right part. */
  lemma {:induction false} DigitsValueAppend(a: string, b: string)
    requires AllDigits(a) && AllDigits(b)
    ensures AllDigits(a + b)
    ensures DigitsValue(a + b) == DigitsValue(a) * Pow10(|b|) + DigitsValue(b)
    decreases |b|
  {
    if |b| == 0 {
      assert a + b == a;
    } else {
      var b' := b[..|b| - 1];
      var last := b[|b| - 1];
      assert (a + b)[..|a + b| - 1] == a + b';
      assert (a + b)[|a + b| - 1] == last;
      DigitsValueAppend(a, b');
      var x, p, y := DigitsValue(a), Pow10(|b'|), DigitsValue(b');
      assert DigitsValue(a + b) == (x * p + y) * 10 + DigitOf(last);
      ShiftDigit(x, p, y, DigitOf(last));
    }
  }

  lemma ShiftDigit(x: int, p: int, y: int, d: int)
    ensures (x * p + y) * 10 + d == x * (10 * p) + (y * 10 + d)
  {
  }

  /** Python's `str(n)` for a natural number: no sign, no leading zero. */
  function NatText(n: nat): (r: string)
    ensures |r| >= 1 && AllDigits(r)
    ensures r[0] == '0' ==> n == 0
    ensures DigitsValue(r) == n
  {
    if n < 10 then [DigitChar(n)]
    else
      var prefix := NatText(n / 10);
      assert (prefix + [DigitChar(n % 10)])[..|prefix|] == prefix;
      prefix + [DigitChar(n % 10)]
  }

  /** `n` written on exactly `width` digits, zero-padded on the left (the
      `%d`, `%m` and `%Y` directives of strftime, and the fraction digits of
      a decimal). */
  function PadText(n: nat, width: nat): (r: string)
    requires n < Pow10(width)
    ensures |r| == width && AllDigits(r)
    ensures DigitsValue(r) == n
    ensures width > 0 ==> DigitOf(r[width - 1]) == n % 10
  {
    if width == 0 then ""
    else
      DivMod(n, 10);
      var prefix := PadText(n / 10, width - 1);
      var r := prefix + [DigitChar(n % 10)];
      assert r[..width - 1] == prefix && r[width - 1] == DigitChar(n % 10);
      r
  }
}

=== FILE: pipeline.dfy ===
/** The normalisation of one uploaded file, end to end
    (composants/streamlit_app.py, lines 13-99), and the loop over the
    uploads (lines 10-11) with the way an uncaught error ends it. */
module Pipeline {
  import opened Wrappers
  import opened Decimals
  import opened Dates
  import opened Frame
  import opened Grouping
  import opened Aggregate
  import Price

  /** Python's `str.rfind` for one character: its last position, or -1. */
  function RFind(s: string, c: char): (i: int)
    ensures -1 <= i < |s|
    ensures i >= 0 ==> s[i] == c
    ensures forall k :: i < k < |s| ==> s[k] != c
  {
    if |s| == 0 then -1
    else if s[|s| - 1] == c then |s| - 1
    else RFind(s[..|s| - 1], c)
  }

  /** `s` holds a character other than '.'. */
  predicate HasNonDot(s: string) {
    exists i :: 0 <= i < |s| && s[i] != '.'
  }

  /** An extension as `os.path.splitext` returns it: empty, or a '.'
      followed by characters that are neither '.' nor '/'. */
  predicate IsExtension(e: string) {
    e == "" || (e[0] == '.' && forall i :: 0 < i < |e| ==> e[i] != '.' && e[i] != '/')
  }

  /** POSIX `os.path.splitext` (line 76): the extension runs from the last '.'
      of the last path component, provided that component has something
      other than dots before it; otherwise there is no extension. */
  function Splitext(p: string): (r: (string, string))
    ensures r.0 + r.1 == p
    ensures IsExtension(r.1)
  {
    var sep := RFind(p, '/');
    var dot := RFind(p, '.');
    if dot > sep && HasNonDot(p[sep + 1..dot]) then
      LastDotExtension(p, dot);
      (p[..dot], p[dot..])
    else (p, "")
  }

  lemma LastDotExtension(p: string, dot: int)
    requires 0 <= dot < |p| && p[dot] == '.'
    requires forall k :: dot < k < |p| ==> p[k] != '.' && p[k] != '/'
    ensures IsExtension(p[dot..]) && p[..dot] + p[dot..] == p
  {
  }

  /** The "Commande" value: the file name without its extension. */
  function Stem(name: string): string {
    Splitext(name).0
  }

  lemma {:induction false} RFindAppend(a: string, b: string, c: char)
    ensures RFind(a + b, c) == if RFind(b, c) >= 0 then |a| + RFind(b, c) else RFind(a, c)
    decreases |b|
  {
    if |b| == 0 {
      assert a + b == a;
    } else {
      var s := a + b;
      assert s[..|s| - 1] == a + b[..|b| - 1];
      RFindAppend(a, b[..|b| - 1], c);
    }
  }

  /** A name ending in an extension loses exactly that extension, when the
      last path component has a character other than '.' before it. */
  lemma StemDropsExtension(root: string, ext: string)
    requires |ext| >= 1 && ext[0] == '.'
    requires forall i :: 0 < i < |ext| ==> ext[i] != '.' && ext[i] != '/'
    requires HasNonDot(root[RFind(root, '/') + 1..])
    ensures Splitext(root + ext) == (root, ext)
    ensures Stem(root + ext) == root
  {
    var p := root + ext;
    var sep := RFind(root, '/');
    ExtensionFinds(root, ext);
    assert p[sep + 1..|root|] == root[sep + 1..];
    assert p[..|root|] == root && p[|root|..] == ext;
    SplitextAt(p, sep, |root|);
  }

  lemma ExtensionFinds(root: string, ext: string)
    requires |ext| >= 1 && ext[0] == '.'
    requires forall i :: 0 < i < |ext| ==> ext[i] != '.' && ext[i] != '/'
    ensures RFind(root + ext, '.') == |root| && RFind(root + ext, '/') == RFind(root, '/')
  {
    RFindAppend(root, ext, '.');
    RFindAppend(root, ext, '/');
    assert RFind(ext, '.') == 0;
    assert RFind(ext, '/') == -1;
  }

  lemma SplitextAt(p: string, sep: int, dot: int)
    requires RFind(p, '/') == sep && RFind(p, '.') == dot && sep < dot
    requires HasNonDot(p[sep + 1..dot])
    ensures Splitext(p) == (p[..dot], p[dot..])
  {
  }

  /** A name whose last path component has only dots before its last dot,
      such as ".xlsx" or "dir/..csv", has no extension: it is its own stem. */
  lemma StemKeepsDotOnly(root: string, ext: string)
    requires |ext| >= 1 && ext[0] == '.'
    requires forall i :: 0 < i < |ext| ==> ext[i] != '.' && ext[i] != '/'
    requires !HasNonDot(root[RFind(root, '/') + 1..])
    ensures Splitext(root + ext) == (root + ext, "")
    ensures Stem(root + ext) == root + ext
  {
    var p := root + ext;
    ExtensionFinds(root, ext);
    assert p[RFind(root, '/') + 1..|root|] == root[RFind(root, '/') + 1..];
  }

  /** A name with no dot after its last '/' has no extension. */
  lemma StemWithoutDotInLastComponent(p: string)
    requires forall i :: RFind(p, '/') < i < |p| ==> p[i] != '.'
    ensures Splitext(p) == (p, "")
  {
  }

  /** A name without a dot is its own stem. */
  lemma StemWithoutDot(name: string)
    requires '.' !in name
    ensures Stem(name) == name
  {
  }

  /** A cell of an object column as `astype(str)` at line 96 finds it: a
      text; the `None` that `first` (lines 53, 57) leaves in a group whose
      rows have no value; or the NaN that `.dt.strftime` (line 62) writes
      for NaT. */
  datatype ObjectCell = Str(text: string) | NoneValue | NaN

  /** `first` on an object column: the first value, or `None` when the group
      has none. */
  function FirstCell(c: Cell): (r: ObjectCell)
    ensures r == NoneValue <==> c.None?
    ensures r != NaN
    ensures c.Some? ==> r == Str(c.value)
  {
    match c
    case None => NoneValue
    case Some(s) => Str(s)
  }

  /** Line 62 on the group's date: its text, or NaN for NaT. */
  function DateCell(d: Option<CalendarDate>): (r: ObjectCell)
    ensures r == NaN <==> d.None?
    ensures d.Some? ==> r.Str? && ReadDayFirst(r.text) == Some(d.value)
  {
    match DateText(d)
    case None => NaN
    case Some(s) => Str(s)
  }

  /** `astype(str)` at line 96: Python's `str` of the cell. */
  function Stringify(c: ObjectCell): string {
    match c
    case Str(s) => s
    case NoneValue => "None"
    case NaN => "nan"
  }

  /** Line 99's `replace("None", "")`, which matches whole cells only. */
  function Blank(s: string): (r: string)
    ensures r == "" <==> s == "" || s == "None"
    ensures r != s ==> s == "None"
  {
    if s == "None" then "" else s
  }

  /** Lines 96-99 on a cell, as written. */
  function CellTextAsWritten(c: ObjectCell): string {
    Blank(Stringify(c))
  }

  /** Lines 96-99 on a cell, as the comment at line 98 means them: `None`
      and NaN both left empty. */
  function CellText(c: ObjectCell): string {
    match c
    case Str(s) => Blank(s)
    case _ => ""
  }

  /** As written, a NaN shows "nan": `fillna("")` comes after `astype(str)`
      has already turned it into text. A `None` becomes "None" and so is
      emptied by the replacement. */
  lemma NullShowsNan()
    ensures CellTextAsWritten(NaN) == "nan"
    ensures CellTextAsWritten(NoneValue) == ""
    ensures forall c: ObjectCell :: CellTextAsWritten(c) == "" <==> c == NoneValue || c == Str("") || c == Str("None")
  {
  }

  /** The intended cleaning: a cell shows empty exactly when it is `None`,
      NaN, empty or "None"; it differs from the code's only on NaN. */
  lemma CellTextBlanksNulls()
    ensures forall c: ObjectCell :: CellText(c) == "" <==> c == NoneValue || c == NaN || c == Str("") || c == Str("None")
    ensures forall c: ObjectCell :: CellText(c) != CellTextAsWritten(c) <==> c == NaN
  {
  }

  /** Line 62: `strftime` of the group's date; NaT stays null. */
  function DateText(d: Option<CalendarDate>): (r: Cell)
    ensures r.None? <==> d.None?
    ensures d.Some? ==> ReadDayFirst(r.value) == Some(d.value)
  {
    match d
    case None => None
    case Some(x) =>
      FormatReadsBack(x);
      Some(Dates.Format(x))
  }

  /** Line 67 on one cell: a null stays NaN, a text that is no number stops
      the file with the text that failed. */
  function ReadPrice(c: Cell): Result<Option<Decimal>, Error> {
    match c
    case None => Ok(None)
    case Some(s) =>
      match Price.ParsePrice(s)
      case None => Err(PriceNotNumeric(Price.Clean(s)))
      case Some(d) => Ok(Some(d))
  }

  /** The number line 67 makes of one cell: a null stays NaN. */
  function CellPrice(c: Cell): Option<Decimal> {
    if c.None? then None else Price.ParsePrice(c.value)
  }

  /** The cell is null or a text that reads as a number. */
  predicate Numeric(c: Cell) {
    c.None? || Price.ParsePrice(c.value).Some?
  }

  /** Every text of the price column reads as a number. */
  predicate AllNumeric(cells: seq<Cell>) {
    forall i :: 0 <= i < |cells| ==> Numeric(cells[i])
  }

  /** Position `i` holds the first text of the column that is no number. */
  predicate FirstNonNumeric(cells: seq<Cell>, i: int) {
    && 0 <= i < |cells|
    && !Numeric(cells[i])
    && AllNumeric(cells[..i])
  }

  /** Line 67 on the whole column, in group order: the conversion stops at
      the first text that is no number. */
  function ReadPrices(cells: seq<Cell>): (r: Result<seq<Option<Decimal>>, Error>)
    ensures r.Ok? <==> AllNumeric(cells)
    ensures r.Ok? ==> |r.value| == |cells|
    ensures r.Ok? ==> forall i :: 0 <= i < |cells| ==> r.value[i] == CellPrice(cells[i])
    ensures r.Err? ==> exists i :: FirstNonNumeric(cells, i) && r.error == PriceNotNumeric(Price.Clean(cells[i].value))
  {
    if |cells| == 0 then Ok([])
    else
      var rest := cells[1..];
      AllNumericCons(cells);
      ReadPriceNumeric(cells[0]);
      match ReadPrice(cells[0])
      case Err(e) =>
        assert FirstNonNumeric(cells, 0);
        Err(e)
      case Ok(head) =>
        match ReadPrices(rest)
        case Err(e) =>
          ReadPricesShift(cells, e);
          Err(e)
        case Ok(tail) =>
          ReadPricesCons(cells, head, tail);
          Ok([head] + tail)
  }

  lemma ReadPriceNumeric(c: Cell)
    ensures ReadPrice(c).Ok? <==> Numeric(c)
    ensures ReadPrice(c).Ok? ==> ReadPrice(c).value == CellPrice(c)
  {
  }

  lemma AllNumericCons(cells: seq<Cell>)
    requires |cells| > 0
    ensures AllNumeric(cells) <==> Numeric(cells[0]) && AllNumeric(cells[1..])
  {
    AllSplit(cells, Numeric);
  }

  /** A property holds of every element exactly when it holds of the first
      and of every later one. */
  lemma AllSplit<A>(xs: seq<A>, p: A -> bool)
    requires |xs| > 0
    ensures (forall k :: 0 <= k < |xs| ==> p(xs[k])) <==> p(xs[0]) && forall k :: 0 <= k < |xs| - 1 ==> p(xs[1..][k])
  {
    if p(xs[0]) && forall k :: 0 <= k < |xs| - 1 ==> p(xs[1..][k]) {
      forall k | 0 < k < |xs|
        ensures p(xs[k])
      {
        assert xs[k] == xs[1..][k - 1];
      }
    }
  }

  lemma ReadPricesCons(cells: seq<Cell>, head: Option<Decimal>, tail: seq<Option<Decimal>>)
    requires |cells| > 0 && head == CellPrice(cells[0]) && |tail| == |cells| - 1
    requires forall i :: 0 <= i < |tail| ==> tail[i] == CellPrice(cells[1..][i])
    ensures forall i :: 0 <= i < |cells| ==> ([head] + tail)[i] == CellPrice(cells[i])
  {
    ConsMap(cells, head, tail, CellPrice);
  }

  lemma ConsMap<A, B>(xs: seq<A>, head: B, tail: seq<B>, f: A -> B)
    requires |xs| > 0 && head == f(xs[0]) && |tail| == |xs| - 1
    requires forall i :: 0 <= i < |tail| ==> tail[i] == f(xs[1..][i])
    ensures forall i :: 0 <= i < |xs| ==> ([head] + tail)[i] == f(xs[i])
  {
    forall i | 0 < i < |xs|
      ensures ([head] + tail)[i] == f(xs[i])
    {
      assert xs[i] == xs[1..][i - 1];
    }
  }

  lemma ReadPricesShift(cells: seq<Cell>, e: Error)
    requires |cells| > 0 && Numeric(cells[0])
    requires exists i :: FirstNonNumeric(cells[1..], i) && e == PriceNotNumeric(Price.Clean(cells[1..][i].value))
    ensures exists i :: FirstNonNumeric(cells, i) && e == PriceNotNumeric(Price.Clean(cells[i].value))
  {
    var rest := cells[1..];
    var i :| FirstNonNumeric(rest, i) && e == PriceNotNumeric(Price.Clean(rest[i].value));
    NumericPrefix(cells, i);
    assert cells[i + 1] == rest[i];
    assert FirstNonNumeric(cells, i + 1);
  }

  lemma NumericPrefix(cells: seq<Cell>, i: nat)
    requires |cells| > 0 && Numeric(cells[0]) && i < |cells| - 1
    requires AllNumeric(cells[1..][..i])
    ensures AllNumeric(cells[..i + 1])
  {
    assert cells[..i + 1] == [cells[0]] + cells[1..][..i];
    AllCons(cells[0], cells[1..][..i], Numeric);
  }

  lemma AllCons<A>(head: A, tail: seq<A>, p: A -> bool)
    requires p(head) && forall k :: 0 <= k < |tail| ==> p(tail[k])
    ensures forall k :: 0 <= k < |tail| + 1 ==> p(([head] + tail)[k])
  {
    forall k | 0 < k < |tail| + 1
      ensures p(([head] + tail)[k])
    {
      assert ([head] + tail)[k] == tail[k - 1];
    }
  }

  /** Line 73, `apply(format_prix)`, in group order: `int(NaN)` raises on the
      first group with no price. */
  function FormatPrices(ps: seq<Option<Decimal>>): (r: Result<seq<string>, Error>)
    ensures r.Ok? <==> forall i :: 0 <= i < |ps| ==> ps[i].Some?
    ensures r.Ok? ==> |r.value| == |ps| && forall i :: 0 <= i < |ps| ==> r.value[i] == Price.FormatPrice(ps[i].value)
    ensures r.Err? ==> r.error == PriceMissing
  {
    ApplyPresent(ps, Price.FormatPrice)
  }

  /** `apply(f)` on a column whose null makes `f` raise: `f` of every value
      in order, or the missing-price error at the first null. */
  function ApplyPresent<A, B>(ps: seq<Option<A>>, f: A -> B): (r: Result<seq<B>, Error>)
    ensures r.Ok? <==> forall i :: 0 <= i < |ps| ==> ps[i].Some?
    ensures r.Ok? ==> |r.value| == |ps| && forall i :: 0 <= i < |ps| ==> r.value[i] == f(ps[i].value)
    ensures r.Err? ==> r.error == PriceMissing
  {
    if |ps| == 0 then Ok([])
    else
      assert forall i :: 0 < i < |ps| ==> ps[i] == ps[1..][i - 1];
      match ps[0]
      case None => Err(PriceMissing)
      case Some(d) =>
        match ApplyPresent(ps[1..], f)
        case Err(e) => Err(e)
        case Ok(tail) => Ok([f(d)] + tail)
  }

  /** Lines 65-73 on the price column of the groups. */
  function Prices(cells: seq<Cell>): (r: Result<seq<string>, Error>)
    ensures r.Ok? ==> |r.value| == |cells|
  {
    var ps :- ReadPrices(cells);
    FormatPrices(ps)
  }

  /** The price column succeeds exactly when every group has a price that
      reads as a number, and then shows each group's price as `format_prix`
      writes it; a text that is no number is reported before a missing
      price, and it is the first such text in group order. */
  lemma PricesSpec(cells: seq<Cell>)
    ensures Prices(cells).Ok? <==> forall i :: 0 <= i < |cells| ==> cells[i].Some? && Price.PriceText(cells[i].value).Some?
    ensures Prices(cells).Ok? ==> |Prices(cells).value| == |cells|
    ensures Prices(cells).Ok? ==> forall i :: 0 <= i < |cells| ==> Prices(cells).value[i] == Price.PriceText(cells[i].value).value
    ensures Prices(cells) == Err(PriceMissing) <==> AllNumeric(cells) && exists i :: 0 <= i < |cells| && cells[i].None?
    ensures Prices(cells).Err? && Prices(cells).error.PriceNotNumeric? ==>
      exists i :: FirstNonNumeric(cells, i) && Prices(cells).error.text == Price.Clean(cells[i].value)
  {
    var r := ReadPrices(cells);
    if r.Ok? {
      var ps := r.value;
      assert forall i :: 0 <= i < |cells| ==> (ps[i].Some? <==> cells[i].Some?);
    }
  }

  /** A cell of the result: "Qté" stays a number, every other column is
      text. */
  datatype OutCell = Text(text: string) | Number(amount: Decimal)

  /** The table shown and offered for download. */
  datatype Output = Output(columns: seq<string>, rows: seq<seq<OutCell>>)

  /** Lines 80-91. */
  const OutputColumns: seq<string> :=
    ["Commande", "Référence", Designation, DateNeeded, Ebauche, Version, Quantity, "Annulé", Frame.Price, Band]

  /** One output line, in the order of `OutputColumns`. */
  function Render(stem: string, g: Group, price: string, cellText: ObjectCell -> string): (row: seq<OutCell>)
    ensures |row| == |OutputColumns|
  {
    var s := g.summary;
    [ Text(Blank(stem)), Text(Blank(g.key.reference)), Text(cellText(FirstCell(s.designation))),
      Text(cellText(DateCell(s.needed))), Text(Blank(g.key.ebauche)), Text(Blank(g.key.version)),
      Number(s.quantity), Text(cellText(FirstCell(s.cancelled))), Text(Blank(price)), Text(cellText(FirstCell(s.band))) ]
  }

  /** The price cells of the groups, in group order. */
  function PriceColumn(gs: seq<Group>): (cs: seq<Cell>)
    ensures |cs| == |gs| && forall i :: 0 <= i < |gs| ==> cs[i] == gs[i].summary.price
  {
    seq(|gs|, i requires 0 <= i < |gs| => gs[i].summary.price)
  }

  /** Lines 26-99 for one table, with the final cell cleaning given as
      `cellText`. */
  function Run(t: Sheet, name: string, readDate: string -> Option<CalendarDate>, cellText: ObjectCell -> string): Result<Output, Error> {
    var records :- Project(t);
    var groups := Groups(CoerceDates(records, readDate));
    var prices :- Prices(PriceColumn(groups));
    Ok(Output(OutputColumns, Lines(Stem(name), groups, prices, cellText)))
  }

  /** The output lines, one per group, in group order. */
  function Lines(stem: string, groups: seq<Group>, prices: seq<string>, cellText: ObjectCell -> string): (rows: seq<seq<OutCell>>)
    requires |prices| == |groups|
    ensures |rows| == |groups|
  {
    seq(|groups|, i requires 0 <= i < |groups| => Render(stem, groups[i], prices[i], cellText))
  }

  /** The normalisation as the source performs it. */
  function Normalize(t: Sheet, name: string, readDate: string -> Option<CalendarDate>): Result<Output, Error> {
    Run(t, name, readDate, CellTextAsWritten)
  }

  /** The normalisation with null cells left empty, as line 98 means. */
  function NormalizeIntended(t: Sheet, name: string, readDate: string -> Option<CalendarDate>): Result<Output, Error> {
    Run(t, name, readDate, CellText)
  }

  /** A file lacking a required column yields the KeyError naming every
      missing column; no other file does. */
  lemma RunRejectsMissingColumns(t: Sheet, name: string, readDate: string -> Option<CalendarDate>, cellText: ObjectCell -> string)
    ensures (Run(t, name, readDate, cellText).Err? && Run(t, name, readDate, cellText).error.MissingColumns?)
            <==> exists c :: c in Required && c !in t.columns
    ensures Run(t, name, readDate, cellText).Err? && Run(t, name, readDate, cellText).error.MissingColumns? ==>
      Run(t, name, readDate, cellText).error.names == Missing(t.columns)
  {
    var p := Project(t);
    if p.Ok? {
      var groups := Groups(CoerceDates(p.value, readDate));
      PricesSpec(PriceColumn(groups));
    }
  }

  /** The shape of a successful result: the fixed columns, one line per
      distinct key of the sheet (never more lines than rows), the sheet's
      stem in "Commande" and an empty "Annulé" on every line. */
  lemma RunShape(t: Sheet, name: string, readDate: string -> Option<CalendarDate>, cellText: ObjectCell -> string)
    requires Run(t, name, readDate, cellText).Ok?
    ensures Project(t).Ok?
    ensures var out := Run(t, name, readDate, cellText).value;
      && out.columns == OutputColumns
      && |out.rows| == |KeySet(Project(t).value)| <= |t.rows|
      && forall i :: 0 <= i < |out.rows| ==>
        && |out.rows[i]| == |OutputColumns|
        && out.rows[i][0] == Text(Blank(Stem(name)))
        && out.rows[i][7] == Text(cellText(Str("")))
  {
    var records := Project(t).value;
    var ds := CoerceDates(records, readDate);
    var groups := Groups(ds);
    var prices := Prices(PriceColumn(groups)).value;
    assert Run(t, name, readDate, cellText).value == Output(OutputColumns, Lines(Stem(name), groups, prices, cellText));
    GroupCount(ds);
    CoerceKeepsKeys(records, readDate);
    DatedCancelled(t, readDate);
    GroupsCancelled(ds);
    LinesShape(Stem(name), groups, prices, cellText);
  }

  lemma GroupCount(ds: seq<DatedRecord>)
    ensures |Groups(ds)| == |KeySet(ds)| <= |ds|
  {
    GroupsSpec(ds);
  }

  /** Every projected row, dated, keeps the empty "Annulé" of line 39. */
  lemma DatedCancelled(t: Sheet, readDate: string -> Option<CalendarDate>)
    requires Project(t).Ok?
    ensures var ds := CoerceDates(Project(t).value, readDate);
      forall i :: 0 <= i < |ds| ==> ds[i].cancelled == Some("")
  {
    var records := Project(t).value;
    var ds := CoerceDates(records, readDate);
    forall i | 0 <= i < |ds|
      ensures ds[i].cancelled == Some("")
    {
      assert WithDate(ds[i], records[i].needed) == records[i];
    }
  }

  lemma GroupsCancelled(ds: seq<DatedRecord>)
    requires forall i :: 0 <= i < |ds| ==> ds[i].cancelled == Some("")
    ensures forall i :: 0 <= i < |Groups(ds)| ==> Groups(ds)[i].summary.cancelled == Some("")
  {
    var groups := Groups(ds);
    GroupsSpec(ds);
    forall i | 0 <= i < |groups|
      ensures groups[i].summary.cancelled == Some("")
    {
      CancelledIsEmpty(ds, groups[i].key);
    }
  }

  lemma LinesShape(stem: string, groups: seq<Group>, prices: seq<string>, cellText: ObjectCell -> string)
    requires |prices| == |groups|
    requires forall i :: 0 <= i < |groups| ==> groups[i].summary.cancelled == Some("")
    ensures var rows := Lines(stem, groups, prices, cellText);
      forall i :: 0 <= i < |rows| ==>
        && |rows[i]| == |OutputColumns|
        && rows[i][0] == Text(Blank(stem))
        && rows[i][7] == Text(cellText(Str("")))
  {
  }

  /** Every keyed row carries the empty "Annulé" of line 39, so each group's
      first "Annulé" is empty. */
  lemma CancelledIsEmpty(ds: seq<DatedRecord>, k: Key)
    requires forall i :: 0 <= i < |ds| ==> ds[i].cancelled == Some("")
    requires k in KeySet(ds)
    ensures Summarise(Members(ds, k)).cancelled == Some("")
  {
    MembersAreRows(ds, k);
    var i :| 0 <= i < |ds| && KeyOf(ds[i]) == Some(k);
    var ms := Members(ds, k);
    assert ds[i] in ms;
  }

  /** What each line holds, in terms of the group it summarises. */
  predicate LineOf(row: seq<OutCell>, ds: seq<DatedRecord>, k: Key, cellText: ObjectCell -> string) {
    var s := Summarise(Members(ds, k));
    && k in KeySet(ds)
    && s.price.Some? && Price.PriceText(s.price.value).Some?
    && RowSays(row, k, s, Price.PriceText(s.price.value).value, cellText)
  }

  /** The cells of a line, other than the order name and the cancellation
      mark, given its key, its summary and its formatted price. */
  predicate RowSays(row: seq<OutCell>, k: Key, s: Summary, price: string, cellText: ObjectCell -> string) {
    && |row| == |OutputColumns|
    && row[1] == Text(Blank(k.reference))
    && row[2] == Text(cellText(FirstCell(s.designation)))
    && row[3] == Text(cellText(DateCell(s.needed)))
    && row[4] == Text(Blank(k.ebauche))
    && row[5] == Text(Blank(k.version))
    && row[6] == Number(s.quantity)
    && row[8] == Text(Blank(price))
    && row[9] == Text(cellText(FirstCell(s.band)))
  }

  /** Each line of a successful result is the summary of one group of the
      sheet: its key cells, the first designation, price and band, the
      earliest date and the total quantity of the rows carrying that key. */
  lemma RunLines(t: Sheet, name: string, readDate: string -> Option<CalendarDate>, cellText: ObjectCell -> string)
    requires Run(t, name, readDate, cellText).Ok?
    ensures Project(t).Ok?
    ensures var ds := CoerceDates(Project(t).value, readDate);
      var gs := Groups(ds);
      var rows := Run(t, name, readDate, cellText).value.rows;
      && |rows| == |gs|
      && forall i :: 0 <= i < |gs| ==> LineOf(rows[i], ds, gs[i].key, cellText)
  {
    var ds := CoerceDates(Project(t).value, readDate);
    var gs := Groups(ds);
    var cells := PriceColumn(gs);
    var prices := Prices(cells).value;
    assert Run(t, name, readDate, cellText).value.rows == Lines(Stem(name), gs, prices, cellText);
    LinesMeaning(Stem(name), ds, prices, cellText);
  }

  lemma LinesMeaning(stem: string, ds: seq<DatedRecord>, prices: seq<string>, cellText: ObjectCell -> string)
    requires Prices(PriceColumn(Groups(ds))) == Ok(prices)
    ensures var gs := Groups(ds);
      forall i :: 0 <= i < |gs| ==> LineOf(Lines(stem, gs, prices, cellText)[i], ds, gs[i].key, cellText)
  {
    var gs := Groups(ds);
    var cells := PriceColumn(gs);
    GroupsSummarise(ds);
    PricedGroups(cells);
    forall i | 0 <= i < |gs|
      ensures LineOf(Lines(stem, gs, prices, cellText)[i], ds, gs[i].key, cellText)
    {
      assert Lines(stem, gs, prices, cellText)[i] == Render(stem, gs[i], prices[i], cellText);
      assert cells[i] == gs[i].summary.price;
      LineOfGroup(stem, gs[i], prices[i], ds, cellText);
    }
  }

  lemma LineOfGroup(stem: string, g: Group, price: string, ds: seq<DatedRecord>, cellText: ObjectCell -> string)
    requires g.key in KeySet(ds) && g.summary == Summarise(Members(ds, g.key))
    requires g.summary.price.Some? && Price.PriceText(g.summary.price.value).Some?
    requires price == Price.PriceText(g.summary.price.value).value
    ensures LineOf(Render(stem, g, price, cellText), ds, g.key, cellText)
  {
    RenderSays(stem, g, price, cellText);
  }

  lemma RenderSays(stem: string, g: Group, price: string, cellText: ObjectCell -> string)
    ensures RowSays(Render(stem, g, price, cellText), g.key, g.summary, price, cellText)
  {
  }

  lemma GroupsSummarise(ds: seq<DatedRecord>)
    ensures forall i :: 0 <= i < |Groups(ds)| ==>
      && Groups(ds)[i].key in KeySet(ds)
      && Groups(ds)[i].summary == Summarise(Members(ds, Groups(ds)[i].key))
  {
    GroupsSpec(ds);
  }

  lemma PricedGroups(cells: seq<Cell>)
    requires Prices(cells).Ok?
    ensures forall i :: 0 <= i < |cells| ==>
      && cells[i].Some? && Price.PriceText(cells[i].value).Some?
      && Prices(cells).value[i] == Price.PriceText(cells[i].value).value
  {
    PricesSpec(cells);
  }

  /** Whether a sheet normalises, and with which error, does not depend on
      how the last step writes null cells. */
  lemma RunOutcomeIgnoresCellText(t: Sheet, name: string, readDate: string -> Option<CalendarDate>, f: ObjectCell -> string, g: ObjectCell -> string)
    ensures Run(t, name, readDate, f).Ok? <==> Run(t, name, readDate, g).Ok?
    ensures Run(t, name, readDate, f).Err? ==> Run(t, name, readDate, f).error == Run(t, name, readDate, g).error
  {
  }

  /** The designation and date cells of line i of a successful result. */
  lemma RunCells(t: Sheet, name: string, readDate: string -> Option<CalendarDate>, cellText: ObjectCell -> string, i: nat)
    requires Run(t, name, readDate, cellText).Ok? && Project(t).Ok?
    requires i < |Groups(CoerceDates(Project(t).value, readDate))|
    ensures var ds := CoerceDates(Project(t).value, readDate);
      var s := Summarise(Members(ds, Groups(ds)[i].key));
      var rows := Run(t, name, readDate, cellText).value.rows;
      && i < |rows| && |rows[i]| == |OutputColumns|
      && rows[i][2] == Text(cellText(FirstCell(s.designation)))
      && rows[i][3] == Text(cellText(DateCell(s.needed)))
  {
    var ds := CoerceDates(Project(t).value, readDate);
    RunLines(t, name, readDate, cellText);
    LineCells(Run(t, name, readDate, cellText).value.rows[i], ds, Groups(ds)[i].key, cellText);
  }

  lemma LineCells(row: seq<OutCell>, ds: seq<DatedRecord>, k: Key, cellText: ObjectCell -> string)
    requires LineOf(row, ds, k, cellText)
    ensures |row| == |OutputColumns|
    ensures row[2] == Text(cellText(FirstCell(Summarise(Members(ds, k)).designation)))
    ensures row[3] == Text(cellText(DateCell(Summarise(Members(ds, k)).needed)))
  {
  }

  /** As written, a group whose rows all have an unreadable or empty date
      shows "nan" in the date column, where the intended cleaning shows an
      empty cell. */
  lemma NullDateShowsNan(t: Sheet, name: string, readDate: string -> Option<CalendarDate>, i: nat)
    requires Normalize(t, name, readDate).Ok? && Project(t).Ok?
    requires var ds := CoerceDates(Project(t).value, readDate);
      i < |Groups(ds)| && Summarise(Members(ds, Groups(ds)[i].key)).needed.None?
    ensures var asWritten := Normalize(t, name, readDate).value.rows;
      i < |asWritten| && |asWritten[i]| == |OutputColumns| && asWritten[i][3] == Text("nan")
    ensures NormalizeIntended(t, name, readDate).Ok? &&
      var intended := NormalizeIntended(t, name, readDate).value.rows;
      i < |intended| && |intended[i]| == |OutputColumns| && intended[i][3] == Text("")
  {
    RunOutcomeIgnoresCellText(t, name, readDate, CellTextAsWritten, CellText);
    RunCells(t, name, readDate, CellTextAsWritten, i);
    RunCells(t, name, readDate, CellText, i);
    NullShowsNan();
  }

  /** A group whose rows all lack a designation gets `None` from `first`,
      which the replacement at line 99 empties: the code shows an empty
      cell there, as intended. */
  lemma NullDesignationShowsEmpty(t: Sheet, name: string, readDate: string -> Option<CalendarDate>, i: nat)
    requires Normalize(t, name, readDate).Ok? && Project(t).Ok?
    requires var ds := CoerceDates(Project(t).value, readDate);
      i < |Groups(ds)| && Summarise(Members(ds, Groups(ds)[i].key)).designation.None?
    ensures var asWritten := Normalize(t, name, readDate).value.rows;
      i < |asWritten| && |asWritten[i]| == |OutputColumns| && asWritten[i][2] == Text("")
  {
    RunCells(t, name, readDate, CellTextAsWritten, i);
    NullShowsNan();
  }

  /** A file as uploaded: its name and its bytes. */
  datatype Upload = Upload(name: string, content: seq<bv8>)

  /** What the loop does with one file: shows its table, reports an
      unreadable spreadsheet and moves on (lines 18-21), or stops on an
      error nothing catches. */
  datatype Outcome = Shown(output: Output) | Skipped(reason: Error) | Stopped(error: Error)

  /** How line 49 reads the date texts of one table. `pd.to_datetime` infers
      one format for the whole column, from its first non-null text, so the
      reading of a text depends on the table it sits in: every table gets its
      own reader. */
  type DateInference = Sheet -> string -> Option<CalendarDate>

  /** Lines 12-99 for one upload. Reading the bytes into a table is
      `read`; reading the table's date texts is `infer` of that table. */
  function ProcessFile(u: Upload, read: (Format, seq<bv8>) -> Option<Sheet>, infer: DateInference): Outcome
  {
    var format := Dispatch(u.name);
    match read(format, u.content)
    case None => if format == Spreadsheet then Skipped(UnreadableSpreadsheet) else Stopped(UnreadableCsv)
    case Some(t) =>
      match Normalize(t, u.name, infer(t))
      case Ok(out) => Shown(out)
      case Err(e) => Stopped(e)
  }

  /** A spreadsheet that cannot be read is skipped, and only such a file;
      a CSV file that cannot be read stops the run, and only such a file
      stops it with that error; the table is shown exactly when the file
      reads and normalises. */
  lemma ProcessFileSpec(u: Upload, read: (Format, seq<bv8>) -> Option<Sheet>, infer: DateInference)
    ensures var o := ProcessFile(u, read, infer);
      && (o.Skipped? <==> HasXlsxSuffix(u.name) && read(Spreadsheet, u.content).None?)
      && (o.Skipped? ==> o.reason == UnreadableSpreadsheet)
      && (o == Stopped(UnreadableCsv) <==> !HasXlsxSuffix(u.name) && read(SemicolonCsv, u.content).None?)
      && (o.Shown? <==> exists t :: read(Dispatch(u.name), u.content) == Some(t) && Normalize(t, u.name, infer(t)).Ok?)
  {
    match read(Dispatch(u.name), u.content)
    case None =>
    case Some(t) => NormalizeNeverUnreadable(t, u.name, infer(t));
  }

  /** The normalisation never reports a reading error. */
  lemma NormalizeNeverUnreadable(t: Sheet, name: string, readDate: string -> Option<CalendarDate>)
    ensures Normalize(t, name, readDate).Err? ==>
      !Normalize(t, name, readDate).error.UnreadableCsv? && !Normalize(t, name, readDate).error.UnreadableSpreadsheet?
  {
    var p := Project(t);
    if p.Ok? {
      var gs := Groups(CoerceDates(p.value, readDate));
      PricesSpec(PriceColumn(gs));
    }
  }

  /** Lines 10-11: the uploads in order, the run ending with the first file
      whose error nothing catches. Each file's outcome depends on that file
      alone, so the run is the outcomes of all files cut after the first
      that stops. */
  function RunBatch(us: seq<Upload>, read: (Format, seq<bv8>) -> Option<Sheet>, infer: DateInference): (os: seq<Outcome>)
    ensures |os| <= |us|
    ensures forall i :: 0 <= i < |os| ==> os[i] == ProcessFile(us[i], read, infer)
    ensures forall i :: 0 <= i < |os| - 1 ==> !os[i].Stopped?
    ensures |os| < |us| ==> |os| > 0 && os[|os| - 1].Stopped?
  {
    UntilStopped(seq(|us|, i requires 0 <= i < |us| => ProcessFile(us[i], read, infer)))
  }

  /** The outcomes up to and including the first that stops the run. */
  function UntilStopped(os: seq<Outcome>): (r: seq<Outcome>)
    ensures |r| <= |os| && r == os[..|r|]
    ensures forall i :: 0 <= i < |r| - 1 ==> !r[i].Stopped?
    ensures |r| < |os| ==> |r| > 0 && r[|r| - 1].Stopped?
  {
    if |os| == 0 then []
    else if os[0].Stopped? then [os[0]]
    else
      var rest := UntilStopped(os[1..]);
      assert os[..|rest| + 1] == [os[0]] + os[1..][..|rest|];
      [os[0]] + rest
  }
}

=== FILE: price.dfy ===
/** The price column (composants/streamlit_app.py, lines 64-73): the cell
    text is cleaned of the euro sign, its decimal comma turned into a point,
    read as a number, and written back in the French style: an integral
    price without a decimal point, any other price with a decimal comma. */
module Price {
  import opened Wrappers
  import opened Numerals
  import opened Decimals
  import Text

  /** Lines 65-66: every '€' removed, then every ',' turned into '.'. */
  function Clean(s: string): (r: string)
    ensures '€' !in r && ',' !in r
    ensures |r| <= |s|
  {
    Text.ReplaceChar(Text.RemoveChar(s, '€'), ',', '.')
  }

  /** Cleaning works character by character and keeps the order: the
      cleaning of a text is the cleanings of its parts, put together. */
  lemma CleanAppend(a: string, b: string)
    ensures Clean(a + b) == Clean(a) + Clean(b)
  {
    Text.RemoveCharAppend(a, b, '€');
    Text.ReplaceCharAppend(Text.RemoveChar(a, '€'), Text.RemoveChar(b, '€'), ',', '.');
  }

  /** The cleaning of one character: '€' disappears, ',' becomes '.',
      anything else stays. With `CleanAppend` this fixes `Clean` on every text. */
  lemma CleanChar(c: char)
    ensures Clean([c]) == if c == '€' then "" else if c == ',' then "." else [c]
  {
  }

  /** Line 67: the cleaned text read by `float`, which ignores surrounding
      Unicode whitespace. `None` where the conversion raises. */
  function ParsePrice(s: string): Option<Decimal> {
    ParseDecimal(Clean(s), Text.IsUnicodeSpace)
  }

  /** Lines 68-72, `format_prix`: `str(int(x))` when `x == int(x)`, else
      `str(x)` with its '.' turned into ','. */
  function FormatPrice(d: Decimal): (r: string)
    ensures |r| > 0
    ensures '.' !in r && '€' !in r
    ensures ',' in r <==> !IsIntegral(d)
  {
    if IsIntegral(d) then
      var r := IntText(d.mantissa / Pow10(d.scale));
      assert forall i :: 0 <= i < |r| ==> r[i] != ',' && r[i] != '.' && r[i] != '€';
      r
    else
      var n := Shortest(d);
      IntegralShortest(d);
      CommaText(n);
      Text.ReplaceChar(PointText(n), '.', ',')
  }

  /** The text of a decimal with a fraction, its point turned into a comma,
      has that comma and neither a point nor a euro sign. */
  lemma CommaText(n: Decimal)
    requires n.scale > 0
    ensures var r := Text.ReplaceChar(PointText(n), '.', ',');
      |r| > 0 && ',' in r && '.' !in r && '€' !in r
  {
    var a := Abs(n.mantissa);
    var p := Pow10(n.scale);
    DivMod(a, p);
    CommaOfParts(if n.mantissa < 0 then "-" else "", NatText(a / p), PadText(a % p, n.scale));
  }

  /** A signed numeral with digits on both sides of its point, the point
      turned into a comma. */
  lemma CommaOfParts(sign: string, whole: string, frac: string)
    requires sign == "" || sign == "-"
    requires AllDigits(whole) && AllDigits(frac)
    ensures var r := Text.ReplaceChar(sign + whole + "." + frac, '.', ',');
      |r| > 0 && ',' in r && '.' !in r && '€' !in r
  {
    var left, right := sign + whole, "." + frac;
    assert sign + whole + "." + frac == left + right;
    forall i | 0 <= i < |left| ensures left[i] != '€' {
      if i >= |sign| {
        assert left[i] == whole[i - |sign|];
      }
    }
    forall i | 0 < i < |right| ensures right[i] != '€' {
      assert right[i] == frac[i - 1];
    }
    NoEuroJoined(left, right);
    var r := Text.ReplaceChar(left + right, '.', ',');
    assert r[|left|] == ',';
  }

  /** Two texts without a euro sign make one without. */
  lemma NoEuroJoined(left: string, right: string)
    requires forall i :: 0 <= i < |left| ==> left[i] != '€'
    requires forall i :: 0 <= i < |right| ==> right[i] != '€'
    ensures '€' !in left + right
  {
    forall i | 0 <= i < |left + right| ensures (left + right)[i] != '€' {
      if i >= |left| {
        assert (left + right)[i] == right[i - |left|];
      }
    }
  }

  /** Lines 65-73 on one cell: the rendered price, or `None` when the cleaned
      text is not a number (the conversion at line 67 raises). */
  function PriceText(s: string): (r: Option<string>)
    ensures r.Some? <==> ParsePrice(s).Some?
    ensures r.Some? ==> '.' !in r.value && '€' !in r.value
    ensures r.Some? ==> ParsePrice(r.value) == Some(Shortest(ParsePrice(s).value))
    ensures r.Some? ==> (',' in r.value <==> !IsIntegral(ParsePrice(s).value))
  {
    match ParsePrice(s)
    case None => None
    case Some(d) => PriceRoundTrip(d); Some(FormatPrice(d))
  }

  /** The rendered price reads back, through the same cleaning and parsing,
      as the shortest decimal for the same number: the comma rendering loses
      nothing, and the fraction keeps no trailing zero. */
  lemma PriceRoundTrip(d: Decimal)
    ensures ParsePrice(FormatPrice(d)) == Some(Shortest(d))
    ensures Value(Shortest(d)) == Value(d)
  {
    if IsIntegral(d) {
      IntegralRoundTrip(d);
    } else {
      FractionRoundTrip(d);
    }
  }

  lemma IntegralRoundTrip(d: Decimal)
    requires IsIntegral(d)
    ensures ParsePrice(FormatPrice(d)) == Some(Shortest(d))
  {
    IntegralShortest(d);
    var n := d.mantissa / Pow10(d.scale);
    var digits := NatText(Abs(n));
    IntegralCanonical(d);
    ParseCanonical(n < 0, digits, "");
    assert digits + "" == digits;
    assert Signed(n < 0, DigitsValue(digits)) == n;
  }

  /** An integral price is written as `str` writes the integer, and the
      cleaning leaves that text alone. */
  lemma IntegralCanonical(d: Decimal)
    requires IsIntegral(d)
    ensures var n := d.mantissa / Pow10(d.scale);
      && FormatPrice(d) == CanonicalText(n < 0, NatText(Abs(n)), "")
      && Clean(FormatPrice(d)) == FormatPrice(d)
  {
    var n := d.mantissa / Pow10(d.scale);
    var digits := NatText(Abs(n));
    var r := IntText(n);
    assert FormatPrice(d) == r;
    CleanIdentity(r);
    assert digits + "" == digits;
  }

  lemma FractionRoundTrip(d: Decimal)
    requires !IsIntegral(d)
    ensures ParsePrice(FormatPrice(d)) == Some(Shortest(d))
  {
    IntegralShortest(d);
    var nd := Shortest(d);
    var point := PointText(nd);
    assert FormatPrice(d) == Text.ReplaceChar(point, '.', ',');
    PointTextParts(nd);
    ReplaceBack(point);
    PointTextReadsBack(nd);
  }

  lemma PointTextParts(d: Decimal)
    requires d.scale > 0
    ensures forall i :: 0 <= i < |PointText(d)| ==> IsNumeralChar(PointText(d)[i])
  {
    var a := Abs(d.mantissa);
    var p := Pow10(d.scale);
    DivMod(a, p);
    var whole, frac := NatText(a / p), PadText(a % p, d.scale);
    var sign := if d.mantissa < 0 then "-" else "";
    assert PointText(d) == sign + (whole + ("." + frac));
  }

  lemma PointTextReadsBack(d: Decimal)
    requires d.scale > 0
    ensures ParseDecimal(PointText(d), Text.IsUnicodeSpace) == Some(d)
  {
    var a := Abs(d.mantissa);
    var p := Pow10(d.scale);
    DivMod(a, p);
    var whole, frac := NatText(a / p), PadText(a % p, d.scale);
    assert PointText(d) == CanonicalText(d.mantissa < 0, whole, frac);
    ParseCanonical(d.mantissa < 0, whole, frac);
    SplitDigitsValue(a, d.scale);
  }

  /** Integer part and zero-padded fraction digits, read together, give back
      the mantissa. */
  lemma SplitDigitsValue(a: nat, scale: nat)
    ensures a / Pow10(scale) >= 0 && a % Pow10(scale) < Pow10(scale)
    ensures AllDigits(NatText(a / Pow10(scale)) + PadText(a % Pow10(scale), scale))
    ensures DigitsValue(NatText(a / Pow10(scale)) + PadText(a % Pow10(scale), scale)) == a
  {
    var p := Pow10(scale);
    DivMod(a, p);
    var whole, frac := NatText(a / p), PadText(a % p, scale);
    DigitsValueAppend(whole, frac);
  }

  lemma NumeralNotSpace(c: char)
    requires IsNumeralChar(c)
    ensures !Text.IsUnicodeSpace(c)
  {
  }

  lemma CleanIdentity(s: string)
    requires forall i :: 0 <= i < |s| ==> s[i] != ',' && s[i] != '€'
    ensures Clean(s) == s
  {
    assert Text.RemoveChar(s, '€') == s;
  }

  lemma ReplaceBack(s: string)
    requires forall i :: 0 <= i < |s| ==> IsNumeralChar(s[i])
    ensures Clean(Text.ReplaceChar(s, '.', ',')) == s
  {
    var r := Text.ReplaceChar(s, '.', ',');
    assert forall i :: 0 <= i < |r| ==> r[i] != '€';
    assert Text.RemoveChar(r, '€') == r;
    var back := Text.ReplaceChar(r, ',', '.');
    assert forall i :: 0 <= i < |s| ==> back[i] == s[i];
  }

  /** A numeral as `str` writes it: optional '-', integer digits, and a '.'
      followed by the fraction digits when there are any. */
  function CanonicalText(negative: bool, whole: string, frac: string): string {
    (if negative then "-" else "") + CanonicalBody(whole, frac)
  }

  function CanonicalBody(whole: string, frac: string): string {
    whole + (if |frac| > 0 then "." + frac else "")
  }

  function Signed(negative: bool, m: int): int {
    if negative then -m else m
  }

  /** How `float` reads a numeral as `str` writes it. */
  lemma ParseCanonical(negative: bool, whole: string, frac: string)
    requires |whole| >= 1 && AllDigits(whole) && AllDigits(frac)
    ensures AllDigits(whole + frac)
    ensures ParseDecimal(CanonicalText(negative, whole, frac), Text.IsUnicodeSpace)
         == Some(Decimal(Signed(negative, DigitsValue(whole + frac)), |frac|))
  {
    var body := CanonicalBody(whole, frac);
    ParseUnsignedCanonical(whole, frac);
    CanonicalEnds(whole, frac);
    var t := CanonicalText(negative, whole, frac);
    SignedNumeral(negative, body, Decimal(DigitsValue(whole + frac), |frac|));
    assert t == (if negative then "-" else "") + body;
    NumeralNotSpace(t[0]);
    NumeralNotSpace(t[|t| - 1]);
    ParseWithoutSpace(t, Text.IsUnicodeSpace);
  }

  lemma CanonicalEnds(whole: string, frac: string)
    requires |whole| >= 1 && AllDigits(whole) && AllDigits(frac)
    ensures var body := CanonicalBody(whole, frac); IsDigit(body[0]) && IsDigit(body[|body| - 1])
  {
    var body := CanonicalBody(whole, frac);
    assert body[0] == whole[0];
    if |frac| > 0 {
      assert body[|body| - 1] == frac[|frac| - 1];
    } else {
      assert body[|body| - 1] == whole[|whole| - 1];
    }
  }

  /** An optional '-' before unsigned digits negates what they denote. */
  lemma SignedNumeral(negative: bool, body: string, d: Decimal)
    requires |body| > 0 && IsDigit(body[0]) && IsDigit(body[|body| - 1])
    requires ParseUnsigned(body) == Some(d)
    ensures var t := (if negative then "-" else "") + body;
      && |t| > 0 && IsNumeralChar(t[0]) && IsDigit(t[|t| - 1])
      && ParseNumeral(t) == Some(Decimal(Signed(negative, d.mantissa), d.scale))
  {
    var t := (if negative then "-" else "") + body;
    assert t[|t| - 1] == body[|body| - 1];
    if negative {
      assert t[0] == '-' && t[1..] == body;
    } else {
      assert t == body;
    }
  }

  lemma ParseWithoutSpace(s: string, space: char -> bool)
    requires |s| > 0 && !space(s[0]) && !space(s[|s| - 1])
    ensures ParseDecimal(s, space) == ParseNumeral(s)
  {
    assert Text.StripBounds(s, space) == (0, |s|);
    assert s[0..|s|] == s;
  }

  lemma ParseUnsignedCanonical(whole: string, frac: string)
    requires |whole| >= 1 && AllDigits(whole) && AllDigits(frac)
    ensures AllDigits(whole + frac)
    ensures ParseUnsigned(CanonicalBody(whole, frac)) == Some(Decimal(DigitsValue(whole + frac), |frac|))
  {
    DigitsValueAppend(whole, frac);
    if |frac| > 0 {
      UnsignedWithFraction(whole, frac);
    } else {
      UnsignedWhole(whole);
      assert whole + frac == whole;
    }
  }

  lemma UnsignedWhole(whole: string)
    requires |whole| >= 1 && AllDigits(whole)
    ensures ParseUnsigned(whole) == Some(Decimal(DigitsValue(whole), 0))
  {
    IndexOfAfterDigits(whole, "");
    assert whole + "" == whole;
    assert whole[..|whole|] == whole;
  }

  lemma UnsignedWithFraction(whole: string, frac: string)
    requires |whole| >= 1 && AllDigits(whole) && AllDigits(frac) && |frac| > 0
    ensures AllDigits(whole + frac)
    ensures ParseUnsigned(whole + ("." + frac)) == Some(Decimal(DigitsValue(whole + frac), |frac|))
  {
    AllDigitsAppend(whole, frac);
    var body := whole + ("." + frac);
    IndexOfAfterDigits(whole, "." + frac);
    assert body[..|whole|] == whole;
    assert body[|whole| + 1..] == frac;
    UnsignedAt(body, whole, frac);
  }

  /** `ParseUnsigned` of a text whose first '.' sits right after `whole` and
      is followed by `frac`. */
  lemma UnsignedAt(body: string, whole: string, frac: string)
    requires IndexOf(body, '.') == |whole| < |body|
    requires body[..|whole|] == whole && body[|whole| + 1..] == frac
    requires |whole| >= 1 && AllDigits(whole) && AllDigits(frac)
    ensures ParseUnsigned(body) == Some(Decimal(DigitsValue(whole + frac), |frac|))
  {
  }

  lemma AllDigitsAppend(a: string, b: string)
    requires AllDigits(a) && AllDigits(b)
    ensures AllDigits(a + b)
  {
    forall i | |a| <= i < |a + b| ensures IsDigit((a + b)[i]) {
      assert (a + b)[i] == b[i - |a|];
    }
  }

  lemma {:induction false} IndexOfAfterDigits(whole: string, tail: string)
    requires AllDigits(whole)
    requires |tail| == 0 || tail[0] == '.'
    ensures IndexOf(whole + tail, '.') == |whole|
    decreases |whole|
  {
    if |whole| > 0 {
      assert (whole + tail)[1..] == whole[1..] + tail;
      IndexOfAfterDigits(whole[1..], tail);
    } else {
      assert whole + tail == tail;
    }
  }
}

=== FILE: text.dfy ===
/** String operations the normalisation relies on, each with the meaning
    Python gives it: the ordering of `str` values, `str.strip` with a given
    notion of whitespace, `str.replace` of one character, `str.lower` and
    `str.endswith`. */
module Text {

  /** Python's `a < b` on `str`: lexicographic by code point, a proper prefix
      ordered first. (Dafny's own `<` on sequences means "proper prefix".) */
  predicate Less(a: string, b: string)
    decreases |a|
  {
    |b| > 0 && (|a| == 0 || a[0] < b[0] || (a[0] == b[0] && Less(a[1..], b[1..])))
  }

  lemma {:induction false} LessIrreflexive(a: string)
    ensures !Less(a, a)
    decreases |a|
  {
    if |a| > 0 {
      LessIrreflexive(a[1..]);
    }
  }

  lemma {:induction false} LessTransitive(a: string, b: string, c: string)
    requires Less(a, b) && Less(b, c)
    ensures Less(a, c)
    decreases |a|
  {
    if |a| > 0 && a[0] == b[0] && b[0] == c[0] {
      LessTransitive(a[1..], b[1..], c[1..]);
    }
  }

  lemma {:induction false} LessTrichotomy(a: string, b: string)
    ensures a == b || Less(a, b) || Less(b, a)
    decreases |a|
  {
    if |a| > 0 && |b| > 0 && a[0] == b[0] {
      LessTrichotomy(a[1..], b[1..]);
      if a[1..] == b[1..] {
        assert a == [a[0]] + a[1..] && b == [b[0]] + b[1..];
      }
    }
  }

  /** Whitespace for C's `isspace` in the "C" locale. pandas' numeric parser
      skips these around a number. */
  predicate IsAsciiSpace(c: char) {
    c == ' ' || c == '\t' || c == '\n' || c == '\r' || c == '\U{B}' || c == '\U{C}'
  }

  /** Whitespace as Python's `str.isspace` defines it. `float()` strips these
      around a number. */
  predicate IsUnicodeSpace(c: char) {
    || IsAsciiSpace(c)
    || '\U{1C}' <= c <= '\U{1F}'
    || c == '\U{85}' || c == '\U{A0}' || c == '\U{1680}'
    || '\U{2000}' <= c <= '\U{200A}'
    || c == '\U{2028}' || c == '\U{2029}' || c == '\U{202F}' || c == '\U{205F}' || c == '\U{3000}'
  }

  /** The bounds of the whitespace-free core of `s`: every character before
      the first bound and from the second bound on satisfies `space`. */
  function StripBounds(s: string, space: char -> bool): (b: (nat, nat))
    ensures b.0 <= b.1 <= |s|
    ensures forall k :: 0 <= k < b.0 ==> space(s[k])
    ensures forall k :: b.1 <= k < |s| ==> space(s[k])
    ensures b.0 < b.1 ==> !space(s[b.0]) && !space(s[b.1 - 1])
  {
    var i := LeadingSpaces(s, space, 0);
    (i, TrailingEnd(s, space, i, |s|))
  }

  /** The index of the first non-space character at or after `from`. */
  function LeadingSpaces(s: string, space: char -> bool, from: nat): (i: nat)
    requires from <= |s|
    ensures from <= i <= |s|
    ensures forall k :: from <= k < i ==> space(s[k])
    ensures i < |s| ==> !space(s[i])
    decreases |s| - from
  {
    if from < |s| && space(s[from]) then LeadingSpaces(s, space, from + 1) else from
  }

  /** The end of `s[lo..hi]` once trailing spaces are dropped. */
  function TrailingEnd(s: string, space: char -> bool, lo: nat, hi: nat): (j: nat)
    requires lo <= hi <= |s|
    ensures lo <= j <= hi
    ensures forall k :: j <= k < hi ==> space(s[k])
    ensures j > lo ==> !space(s[j - 1])
    decreases hi
  {
    if hi > lo && space(s[hi - 1]) then TrailingEnd(s, space, lo, hi - 1) else hi
  }

  /** `s.replace(from, to)` for single characters. */
  function ReplaceChar(s: string, from: char, to: char): (r: string)
    ensures |r| == |s|
    ensures forall i :: 0 <= i < |s| ==> r[i] == (if s[i] == from then to else s[i])
  {
    if |s| == 0 then ""
    else [if s[0] == from then to else s[0]] + ReplaceChar(s[1..], from, to)
  }

  /** `s.replace(c, "")`: every occurrence of `c` removed, the rest kept in order. */
  function RemoveChar(s: string, c: char): (r: string)
    ensures c !in r
    ensures |r| <= |s|
    ensures c !in s ==> r == s
    ensures forall x :: x != c ==> multiset(r)[x] == multiset(s)[x]
  {
    if |s| == 0 then ""
    else
      assert s == [s[0]] + s[1..];
      (if s[0] == c then "" else [s[0]]) + RemoveChar(s[1..], c)
  }

  /** Removal works piece by piece: the two parts of a text lose their
      occurrences independently and stay in order. */
  lemma {:induction false} RemoveCharAppend(a: string, b: string, c: char)
    ensures RemoveChar(a + b, c) == RemoveChar(a, c) + RemoveChar(b, c)
  {
    if |a| == 0 {
      assert a + b == b;
    } else {
      assert (a + b)[0] == a[0] && (a + b)[1..] == a[1..] + b;
      RemoveCharAppend(a[1..], b, c);
    }
  }

  /** Replacement works piece by piece, too. */
  lemma ReplaceCharAppend(a: string, b: string, from: char, to: char)
    ensures ReplaceChar(a + b, from, to) == ReplaceChar(a, from, to) + ReplaceChar(b, from, to)
  {
    var whole, parts := ReplaceChar(a + b, from, to), ReplaceChar(a, from, to) + ReplaceChar(b, from, to);
    forall i | 0 <= i < |whole| ensures whole[i] == parts[i] {
      if i >= |a| {
        assert (a + b)[i] == b[i - |a|];
      }
    }
  }

  /** `str.lower()` restricted to ASCII letters. This is all a test for the
      suffix ".xlsx" can observe: no character outside 'A'..'Z' lowers to
      '.', 'x', 'l' or 's'. */
  function LowerAscii(s: string): (r: string)
    ensures |r| == |s|
    ensures forall i :: 0 <= i < |s| ==> r[i] == LowerChar(s[i])
  {
    if |s| == 0 then ""
    else [LowerChar(s[0])] + LowerAscii(s[1..])
  }

  /** One character lowered: 'A'..'Z' become 'a'..'z', the rest is kept. */
  function LowerChar(c: char): char {
    if 'A' <= c <= 'Z' then (c as int + 32) as char else c
  }

  predicate EndsWith(s: string, suffix: string) {
    |suffix| <= |s| && s[|s| - |suffix|..] == suffix
  }
}

=== FILE: wrappers.dfy ===
/** Failure-compatible wrappers used throughout the model: `Option` for a
    value that may be absent (a null cell, a failed parse) and `Result` for
    an operation that can abort the processing of a file. */
module Wrappers {

  datatype Option<+T> = None | Some(value: T) {

    predicate IsFailure() {
      None?
    }

    function PropagateFailure<U>(): Option<U>
      requires None?
    {
      None
    }

    function Extract(): T
      requires Some?
    {
      value
    }
  }

  datatype Result<+T, +E> = Ok(value: T) | Err(error: E) {

    predicate IsFailure() {
      Err?
    }

    function PropagateFailure<U>(): Result<U, E>
      requires Err?
    {
      Err(error)
    }

    function Extract(): T
      requires Ok?
    {
      value
    }
  }
}
